=== FILE: README.md ===
# PDF sources of the AIDE backend, in Dafny

This project models the part of the AIDE learning backend that turns an
uploaded PDF into a *source*. It covers:

- chapter segmentation of the PDF. The table of contents is tried first,
  then font-based heading detection (which always yields nothing), then
  "Chapter N" / "Section N" headings at line starts, and finally fixed
  ten-page ranges;
- the PDF source itself: setup from an upload, the content it hands to
  generation and chat, the viewer data, the lab actions it offers, and
  rebuilding it from its stored row;
- the prompt-cache bookkeeping every source inherits, through which a cache
  id is reused until it expires and otherwise recreated and persisted;
- the source and lab type registries;
- the upload, read and delete endpoints for sources, with the gate an
  upload passes;
- the exception classes and the handlers that turn them into HTTP
  responses.

Strings are `seq<char>`. Pages are the texts the PDF library extracts. The
library, the file store, the AI provider, the clock and the database's
failures are parameters (oracles).

Modules, in dependency order:

- `Values` covers `Option`, JSON values and Python truthiness of optional
  strings.
- `Strings` covers `sep.join`, `str(int)`, `repr`, and the injectivity of
  numbered identifiers.
- `Exceptions` holds the exception classes with their resolution order,
  `str(e)`, the constructors, and `Result` with `:-`.
- `ErrorHandlers` holds the handler table, dispatch along the resolution
  order, and the response for every exception.
- `Registry` holds the two registries as insertion-ordered dictionaries.
- `Scan` holds the "next position whose element passes a test" scans the
  parser uses twice.
- `ChapterPattern` is the regular expression
  `^(Chapter|CHAPTER|Section|SECTION)\s+(\d+)` in multi-line mode, searched
  leftmost-first.
- `PdfParser` holds the four strategies and `extract_chapters`.
- `PdfSegmentation` and `ChapterExtraction` hold the properties of every
  strategy and of the whole extraction.
- `Scenarios` holds the two documents the integration tests upload (a
  three-entry table of contents and two "Chapter N" pages), segmented
  symbolically.
- `SourceCache` is `get_cache_id`, `_is_cache_valid`, `_create_cache` with
  its provider-error wrapper, and `invalidate_cache`.
- `PdfSource` is the `PDFSource` class.
- `SourceRoutes` is the upload, read and delete endpoints.

## Model

| member | source | states |
|---|---|---|
| Strings.JoinAppend | backend/app/services/pdf_parser.py:193 | joining two non-empty lists of parts is joining each and putting the separator between |
| Strings.JoinSmall | backend/app/services/pdf_parser.py:193 | a single part joins to itself; no parts join to "" |
| Strings.NatToString | backend/app/services/pdf_parser.py:110 | `str(n)` is a non-empty string of decimal digits |
| Strings.ParseNatToString | backend/app/services/pdf_parser.py:110 | reading the digits of `str(n)` back gives `n` |
| Strings.NatToStringInjective | backend/app/services/pdf_parser.py:153 | distinct numbers render differently |
| Strings.NumberedNameInjective | backend/app/services/pdf_parser.py:175 | `prefix + str(a)` determines `a`, so `ch_N` / `section_N` names never collide |
| Strings.Repr | backend/app/registry.py:99-101 | the quoted text of a `KeyError` message is the message between two equal quote characters, double quotes exactly when the message holds a single quote and no double quote |
| ChapterPattern.SpacesEnd | backend/app/services/pdf_parser.py:131 | `\s+` stops at the first non-whitespace character and everything before it is whitespace |
| ChapterPattern.DigitsEnd | backend/app/services/pdf_parser.py:131 | `\d+` is greedy: it covers only digits and stops at the first non-digit |
| ChapterPattern.DigitIsNotSpace | backend/app/services/pdf_parser.py:131 | no digit is whitespace, so the two runs of the pattern never overlap |
| ChapterPattern.SpacesEndStopsAt | backend/app/services/pdf_parser.py:131 | a whitespace run followed by a non-space ends exactly there |
| ChapterPattern.DigitsEndReaches | backend/app/services/pdf_parser.py:131 | the greedy digit run reaches at least as far as any run of digits |
| ChapterPattern.MatchEndSpec | backend/app/services/pdf_parser.py:131 | at a line start, the matcher succeeds iff a keyword, whitespace and a digit follow, and the match is keyword, whitespace and the whole digit run |
| ChapterPattern.MatchEndComplete | backend/app/services/pdf_parser.py:131 | a heading at a position is found by the matcher |
| ChapterPattern.MatchEndSound | backend/app/services/pdf_parser.py:131 | what the matcher finds at a line start is a heading, matched through the whole digit run |
| ChapterPattern.SearchFromSpec | backend/app/services/pdf_parser.py:138 | search from a position finds the leftmost heading at or after it, and finds none iff there is none |
| ChapterPattern.SearchSpec | backend/app/services/pdf_parser.py:138 | `chapter_pattern.search(text)` returns the leftmost heading's text, and returns nothing iff no line starts a heading |
| Exceptions.Mro | backend/app/config/exceptions.py:4-49 | the resolution order starts at the class and ends at `Exception` |
| Exceptions.MroTable | backend/app/config/exceptions.py:4-49 | the resolution order of every class in the hierarchy, spelled out |
| Exceptions.DatabaseClasses | backend/app/config/exceptions.py:13-49 | the database errors are exactly the database base class and its four subclasses |
| Exceptions.AideClasses | backend/app/config/exceptions.py:4-49 | the application errors are the base class, the provider error and the database errors; no built-in error is one |
| Exceptions.EveryClassIsException | backend/app/config/exceptions.py:4-49 | every class derives from `Exception` |
| ErrorHandlers.FirstHandler | backend/app/routes/v1/exceptions.py:64-70 | the chosen handler is the registered handler of the first class along the order that has one, and none is chosen iff no class has one |
| ErrorHandlers.DispatchDirect | backend/app/routes/v1/exceptions.py:64-70 | a class with a registered handler is dispatched to it |
| ErrorHandlers.DispatchInherited | backend/app/routes/v1/exceptions.py:64-70 | the transaction error goes to the database handler, the provider error to the application handler, Python's built-in errors to the global one |
| ErrorHandlers.DispatchTable | backend/app/routes/v1/exceptions.py:64-70 | each class dispatches to its own handler, else to the database handler, else the application handler, else the global one |
| ErrorHandlers.Respond | backend/app/routes/v1/exceptions.py:17-70 | an HTTP exception answers its own status with `{"detail"}`; a raised error answers 404 / 409 with error and details for not-found and duplicate, 503 for an unreachable database, a fixed 500 for the other database errors, 500 with details for the other application errors, and the global handler's generic 500 (main.py) for every other exception |
| ErrorHandlers.HandledByClass | backend/app/routes/v1/exceptions.py:17-61 | the handler each class dispatches to answers: 404 / 409 with error and details, 503 and a fixed 500 for the other database errors, 500 with details for application errors, the generic 500 otherwise |
| ErrorHandlers.NotFoundResponse | backend/app/routes/v1/exceptions.py:26-32 | not-found answers 404 with "{entity} not found" and the entity and id |
| ErrorHandlers.DuplicateResponse | backend/app/routes/v1/exceptions.py:35-41 | a duplicate answers 409 with the formatted message and the entity, field and value |
| ErrorHandlers.StatusCodes | backend/app/main.py:56-74 | raised errors answer only 404, 409, 500 or 503; 503 iff unreachable database, 404 iff not found, 409 iff duplicate |
| ErrorHandlers.DatabaseDetailsHidden | backend/app/routes/v1/exceptions.py:44-61 | other database errors never expose details and answer 500 or 503 |
| Registry.Empty | backend/app/registry.py:24-25 | the registries start empty and well formed |
| Registry.Register | backend/app/registry.py:51 | assignment keeps the registry well formed and adds exactly the key |
| Registry.Types | backend/app/registry.py:122-128 | the listed types are exactly the registered keys, each once |
| Registry.Lookup | backend/app/registry.py:98-102 | lookup succeeds iff the type is registered; otherwise `KeyError` "Unknown {kind} type: {t}. Available: [...]" |
| Registry.Instantiate | backend/app/registry.py:140-151 | instantiation fails exactly as the lookup does, and otherwise calls the registered class |
| Registry.RegisterThenLookup | backend/app/registry.py:51-55 | after registering, the key finds the new class and every other key finds what it found before |
| Registry.RegisterAll | backend/app/registry.py:24-55 | any series of registrations from empty gives a well-formed registry |
| Registry.RegisteredTypes | backend/app/registry.py:122-128 | after a series of registrations the listed types are exactly the keys registered |
| Registry.LastRegistrationWins | backend/app/registry.py:51 | each key maps to the class of its last registration |
| Registry.RegistrationOrder | backend/app/registry.py:122-128 | types are listed once each, in the order of their first registration |
| Registry.RegisterSource | backend/app/registry.py:28-55 | the decorator returns the class, maps its source type to it, leaves other types alone, and appends a new type at the end of the listing |
| Registry.RegisterLab | backend/app/registry.py:58-83 | the same for lab classes and lab types |
| Registry.GetSourceClass | backend/app/registry.py:86-102 | the class iff registered, otherwise a `KeyError` |
| Registry.GetLabClass | backend/app/registry.py:105-119 | the class iff registered, otherwise a `KeyError` |
| Scan.NextKept | backend/app/services/pdf_parser.py:101-104 | the forward scan stops at the first position passing the test, or at the end when none does |
| Scan.KeptFrom | backend/app/services/pdf_parser.py:92-95 | the listed positions all pass the test |
| Scan.KeptFromIncreasing | backend/app/services/pdf_parser.py:134 | the passing positions are listed in increasing order |
| Scan.KeptFromComplete | backend/app/services/pdf_parser.py:134-139 | every passing position is listed |
| Scan.KeptFromNext | backend/app/services/pdf_parser.py:144-148 | each listed position's forward scan finds the next listed one, and the last one's finds the end |
| Scan.KeptFromNone | backend/app/services/pdf_parser.py:92-95 | nothing is listed when nothing passes |
| PdfParser.PageNumber | backend/app/services/pdf_parser.py:189 | the page loaded for an index below the count is the index modulo the page count: the index itself when not negative, the index plus the count from minus the count to -1 |
| PdfParser.ReadPages | backend/app/services/pdf_parser.py:188-191 | one page text per index of the inclusive range, none for an empty range |
| PdfParser.TextRange | backend/app/services/pdf_parser.py:185-193 | reading a range fails iff it is non-empty and ends at or past the page count, with the library's page error |
| PdfParser.ReadPagesInRange | backend/app/services/pdf_parser.py:185-193 | a range inside the document reads exactly its pages |
| PdfParser.ReadPagesWrapped | backend/app/services/pdf_parser.py:185-193 | a range of negative page numbers down to minus the page count reads the pages counted from the end, -1 being the last page |
| PdfParser.TextRangeSpec | backend/app/services/pdf_parser.py:185-193 | an empty range reads "", a range inside the document its pages joined by a blank line |
| PdfParser.ExtractText | backend/app/services/pdf_parser.py:196-213 | the whole text is the text of the range from the first to the last page, and "" for a document without pages |
| PdfSegmentation.ChainedPartition | backend/app/services/pdf_parser.py:142-148 | chained chapters with rising starts cover every page from the first start on, each page once |
| PdfSegmentation.ChainedTexts | backend/app/services/pdf_parser.py:185-193 | chained chapters' texts, joined by a blank line, are the text of all their pages |
| PdfSegmentation.ChainedAscending | backend/app/services/pdf_parser.py:142-148 | chained chapters that hold their pages start on rising pages |
| PdfSegmentation.PageRangesShape | backend/app/services/pdf_parser.py:163-182 | ⌈n/10⌉ ranges, the k-th covering pages 10k to min(10k+9, n-1), named `section_{k+1}`, titled with 1-based pages, all names distinct |
| PdfSegmentation.PageRangesHold | backend/app/services/pdf_parser.py:163-182 | the ranges are chained and each holds its pages' text |
| PdfSegmentation.PageRangesSpec | backend/app/services/pdf_parser.py:163-182 | the ranges partition the whole document from page 0, and their texts, joined, are the document's text |
| PdfSegmentation.PatternBounds | backend/app/services/pdf_parser.py:142-148 | one chapter per heading page; each ends on the page before the next heading page or on the last page |
| PdfSegmentation.PatternRanges | backend/app/services/pdf_parser.py:142-148 | the pattern chapters are chained |
| PdfSegmentation.PatternTexts | backend/app/services/pdf_parser.py:150 | each pattern chapter holds its pages' text |
| PdfSegmentation.PatternNames | backend/app/services/pdf_parser.py:140-156 | the k-th is `ch_{k+1}`, titled with the heading on its page; names are distinct |
| PdfSegmentation.PatternScan | backend/app/services/pdf_parser.py:134-160 | none iff no page has a heading; a chapter starts on every heading page; chained, rising, holding their text, distinct names |
| PdfSegmentation.PatternsSpec | backend/app/services/pdf_parser.py:127-160 | the same in terms of the pattern search on each page: chapters start exactly where it matches, titled with the matched text |
| PdfSegmentation.TocChapterSpec | backend/app/services/pdf_parser.py:97-115 | an entry's chapter: start one before its 1-based page, end from the next level-1 entry, named by its index in the whole table; fails with the page error iff the range is non-empty and ends past the document |
| PdfSegmentation.TocScanOutcome | backend/app/services/pdf_parser.py:92-117 | the loop succeeds iff every later level-1 entry's range is readable, and fails with the page error otherwise |
| PdfSegmentation.TocScanValues | backend/app/services/pdf_parser.py:92-117 | on success, one chapter per later level-1 entry, in table order |
| PdfSegmentation.TopLevelSpec | backend/app/services/pdf_parser.py:92-95 | exactly the level-1 entries are used, once each, in table order |
| PdfSegmentation.TocOutcome | backend/app/services/pdf_parser.py:85-117 | table-of-contents extraction fails iff some level-1 range is non-empty and ends past the document |
| PdfSegmentation.TocShape | backend/app/services/pdf_parser.py:92-115 | the k-th chapter is the k-th level-1 entry: its name, title, start page and end page |
| PdfSegmentation.TocTexts | backend/app/services/pdf_parser.py:106-107 | an empty range has text "", a range inside the document its pages' text |
| PdfSegmentation.TocChained | backend/app/services/pdf_parser.py:99-104 | each table-of-contents chapter ends on the page before the next starts, the last on the last page |
| PdfSegmentation.TocIds | backend/app/services/pdf_parser.py:110 | no two table-of-contents chapters share a name |
| ChapterExtraction.ExtractionFailures | backend/app/services/pdf_parser.py:42-79 | extraction fails iff the document does not open, is encrypted, has no pages, or has an unreadable level-1 range; every failure is a `ValueError` "Failed to parse PDF: ..." |
| ChapterExtraction.ExtractionOrder | backend/app/services/pdf_parser.py:54-75 | table of contents first, then the patterns if any page matches, otherwise the page ranges |
| ChapterExtraction.NoTopLevelFallsThrough | backend/app/services/pdf_parser.py:92-95 | a table of contents without level-1 entries yields no chapters, so the later strategies decide |
| ChapterExtraction.ExtractionChained | backend/app/services/pdf_parser.py:24-79 | a successful extraction is non-empty, chained to the last page, with distinct names |
| ChapterExtraction.ExtractionCovers | backend/app/services/pdf_parser.py:66-75 | without table-of-contents chapters, the chapters partition the pages from the first chapter on and their texts join to those pages' text |
| Scenarios.TocDocument | backend/tests/integration/test_sources.py:319-343 | a three-page document whose contents list Introduction, Main Content and Conclusion gives those three one-page chapters |
| Scenarios.LeadingHeading | backend/app/services/pdf_parser.py:138-140 | a page opening with "Chapter d" followed by a new line matches with title "Chapter d" |
| Scenarios.PatternDocument | backend/tests/integration/test_sources.py:346-370 | pages opening "Chapter 1", a plain page, then "Chapter 2" give two chapters, the first spanning two pages |
| SourceCache.ProviderError | backend/app/services/ai.py:172-184 | any escaping exception is re-raised as a provider exception, an application error |
| SourceCache.CreateCache | backend/app/sources/base.py:304-372 | nothing without caching support or a service; a created cache is adopted, persisted once, and its id returned unless persisting raises; a provider creating nothing returns the old id; every exception surfaces wrapped |
| SourceCache.GetCacheId | backend/app/sources/base.py:272-292 | a valid cache returns its non-empty id unchanged; an invalid one is recreated |
| SourceCache.Invalidate | backend/app/sources/base.py:374-403 | both fields cleared; the clear persisted iff a service is present; a failing persist raises unwrapped |
| SourceCache.ValidityOverTime | backend/app/sources/base.py:294-302 | validity ends strictly at the expiry time and never comes back |
| SourceCache.ReuseUntilExpiry | backend/app/sources/base.py:272-302 | a cache is reused without a provider call until it expires, and recreated from then on |
| SourceCache.ReuseAfterCreation | backend/app/sources/base.py:349-372 | a freshly created and persisted cache is what the next request gets while it is unexpired |
| SourceCache.InvalidateForcesCreation | backend/app/sources/base.py:374-403 | after invalidation the next request always goes to the provider |
| SourceCache.NoServiceNoCache | backend/app/sources/base.py:338-343 | without a source service nothing is written and the cache never changes |
| PdfSource.FullContentEmpty | backend/app/sources/pdf.py:81-88 | the full content is empty iff there are no chapters |
| PdfSource.FullContentAppend | backend/app/sources/pdf.py:81-88 | another chapter adds its section after a blank line |
| PdfSource.FindIndex | backend/app/sources/pdf.py:96 | the search stops at the first chapter with the id, or at the end when none has it |
| PdfSource.FindChapter | backend/app/sources/pdf.py:96 | nothing iff no chapter has the id; otherwise the first one that does |
| PdfSource.ContentForGeneration | backend/app/sources/pdf.py:90-100 | a missing or empty id and an unknown id raise the two `ValueError`s; otherwise the text of the first chapter with that id |
| PdfSource.CurrentContext | backend/app/sources/pdf.py:102-117 | empty iff no current chapter or no chapter has its id; otherwise the title and start page of the first chapter with that id, and the id |
| PdfSource.PdfLabTypes | backend/app/sources/pdf.py:121-125 | the kept types are registered labs supporting "pdf" |
| PdfSource.PdfLabTypesSpec | backend/app/sources/pdf.py:121-125 | the filter keeps exactly the supporting types, in their order |
| PdfSource.AvailableLabTypes | backend/app/sources/pdf.py:119-125 | a type is offered iff its lab lists "pdf" among its supported sources, in registration order |
| PdfSource.EnhanceActionConfig | backend/app/sources/pdf.py:142-164 | only the schema key is added or changed; a non-dictionary schema is left alone; a dictionary schema is enriched |
| PdfSource.EnhanceSchemaSpec | backend/app/sources/pdf.py:148-163 | enrichment adds the `chapter_id` property to dictionary properties, creates missing properties and required, appends exactly one `chapter_id` to a required list, and keeps every other key |
| PdfSource.AddChapterPropertySpec | backend/app/sources/pdf.py:150-158 | "properties" is created when absent and, when it is a dictionary, gains a `chapter_id` entry; no other key changes |
| PdfSource.RequireChapterSpec | backend/app/sources/pdf.py:160-162 | "required" is created when absent and, when it is a list, gains one `chapter_id` at its end; no other key changes |
| PdfSource.SchemaTwice | backend/app/sources/pdf.py:148-163 | a second schema enrichment appends a second `chapter_id` to the required list and leaves the properties as they were |
| PdfSource.EnhanceTwice | backend/app/sources/pdf.py:142-164 | enrichment is not idempotent: enriching an action twice enriches its schema twice and changes the action again |
| PdfSource.GetActions | backend/app/sources/pdf.py:127-140 | one enriched action per offered lab type, in order |
| PdfSource.ChatContext | backend/app/sources/pdf.py:166-175 | the chat context: the source's id, type "pdf", its title, its cache id or null, the current context, the chapter count |
| PdfSource.ViewChapterDropsText | backend/app/sources/pdf.py:183-191 | the viewer tells two chapters apart iff they differ in something other than their text |
| PdfSource.ViewData | backend/app/sources/pdf.py:177-194 | the viewer gets type "pdf", the title, the storage path, the current chapter id or null, every chapter without its text, in order, and the last chapter's end page as total pages (0 without chapters) |
| PdfSource.ViewDataDropsText | backend/app/sources/pdf.py:177-194 | two sources look the same to the viewer iff they agree on title, path, current chapter and chapters up to their texts |
| PdfSource.StoreAll | backend/app/sources/pdf.py:71-78 | setup stores each chapter's id, title and start page, in order |
| PdfSource.Setup | backend/app/sources/pdf.py:42-79 | setup succeeds iff extraction, storage and the cache step succeed, and otherwise raises the exception of the first step that failed, unchanged; on success it adopts the chapters, the stored path and the cache, makes the first chapter current and returns the stored chapters |
| PdfSource.SetupFromDb | backend/app/sources/pdf.py:196-228 | rebuilding keeps id, title, cache and path (or ""); each stored chapter comes back without text, its end page defaulting to its start page; the first is current |
| PdfSource.StoreRoundTrip | backend/app/sources/pdf.py:211-220 | storing and reading back keeps id, title and start, sets the end page to the start and the text to "" |
| PdfSource.ReloadAfterSetup | backend/app/sources/pdf.py:196-228 | a source rebuilt from what setup returned has the same chapters in order, each ending on its start page, and the same current chapter |
| SourceRoutes.GetRecord | backend/app/services/source.py:53-70 | the row iff it exists, otherwise an error answered with 404 |
| SourceRoutes.UploadGateSpec | backend/app/routes/v1/sources.py:43-58 | non-PDF → 400 before any lookup, missing → 404, already uploaded → 409, over 50 MiB → 413; the gate passes iff none applies |
| SourceRoutes.UploadSuccess | backend/app/routes/v1/sources.py:64-84 | an upload succeeds iff the gate, type lookup, extraction, storage, cache step and row update all succeed; then only that row changes, to the stored path, chapters and cache, and the view data is returned |
| SourceRoutes.UploadFailureRetryable | backend/app/routes/v1/sources.py:85-87 | a failure after the gate answers 500 "Failed to process PDF: " followed by the text of the exception that occurred (the setup's, or else the row update's), and leaves the path and metadata unchanged, so the gate passes again |
| SourceRoutes.UploadOnce | backend/app/routes/v1/sources.py:48-51 | after a successful upload with a non-empty stored path, every further PDF upload answers 409 and changes nothing |
| SourceRoutes.GetSource | backend/app/routes/v1/sources.py:92-105 | 404 for a missing row, 500 for an unregistered type, otherwise the view data of the rebuilt source |
| SourceRoutes.UploadThenView | backend/app/routes/v1/sources.py:92-105 | an upload whose gate passes, whose setup succeeds and whose row update does not raise succeeds; reading the source back then gives its chapters in order, each ending on its start page, the same current chapter, path and cache |
| SourceRoutes.Delete | backend/app/routes/v1/sources.py:120-136 | 404 for a missing row; the file is removed first when a path is stored, and a failing removal keeps the row; on success exactly the row is gone |
| SourceRoutes.DeleteAfterUpload | backend/app/routes/v1/sources.py:120-136 | deleting an uploaded source removes the stored file, then reading or uploading it answers 404 |

## Left out

- Opening the PDF: PyMuPDF is an oracle. Its outcome is the list of page
  texts, the table of contents and the encryption flag, or an exception.
  Text extraction itself, closing the document, and the bytes-versus-path
  question of what the upload passes to the parser are not modelled.
- Font-based heading detection is unimplemented in the source and always
  yields nothing; it is modelled as such.
- PdfParser.PageNotInDocument: the exact text of PyMuPDF's out-of-range
  error is assumed to be "page not in document". The library's version is
  not pinned, and some releases put the page number in the message, so the
  "Failed to parse PDF: " text that wraps it may differ in its tail.
- ChapterPattern: `\d` is taken as the ASCII digits. Python's Unicode
  digits beyond them are not modelled.
- Strings.Repr: backslash escaping of quotes and unprintable characters is
  not modelled. It only shows in `KeyError` texts.
- Dictionaries are finite maps. Their insertion order is not modelled,
  except for the registries, which keep it explicitly.
- PdfSource.SetupFromDb: malformed stored metadata is not modelled, nor are
  chapter entries without `id`, `title` or `start_page`, which raise in the
  source.
- PdfSource.ContentForGeneration: a non-string `chapter_id` in the context
  is not modelled. The context entry is an optional string.
- The workspace id, logging, `async`, temporary files and their removal,
  and the request's file handling are not modelled. The upload size is a
  parameter.
- The clock is a parameter `now` (an integer). Time zones are not modelled.
- The AI provider is an oracle: whether it supports caching, and what
  `create_cache` gives for a content. Gemini's own cache creation,
  generation and the Gemini client are not modelled.
- The database is a map from source id to row. The repository layer, the
  unit of work, `exclude_unset` and the cascade deletion of labs are not
  modelled. Each write's failure is an oracle.
- The file store's upload and deletion are oracles: a stored path or an
  exception, and an optional exception. The storage client is not modelled.
- PdfSource.GetActions: the lab's `get_action_metadata` is taken to return a
  fresh dictionary. When a lab returns a shared dictionary, the source
  mutates it in place and a later call sees the earlier enrichment; that
  aliasing is not modelled.
- SourceRoutes.Upload: any registered source type is instantiated as a PDF
  source, because the PDF source is the only source class there is.
- The create and patch endpoints of sources, and everything about
  workspaces, labs, chat and edges, are outside the modelled core.
- SourceCache.ReuseAfterCreation: the case where the provider returns an
  empty cache id is not covered. Such an id is never valid, so the next
  request calls the provider again.

=== FILE: chapter_pattern.dfy ===
/** The chapter-heading pattern `^(Chapter|CHAPTER|Section|SECTION)\s+(\d+)`
    searched in multi-line mode: a keyword at the start of the text or right
    after a newline, then at least one whitespace character, then at least
    one digit. `Search` returns the matched text (group 0) of the leftmost
    match, with the digit run taken greedily. */
module ChapterPattern {
  import opened Values
  import opened Strings

  const Keywords: seq<string> := ["Chapter", "CHAPTER", "Section", "SECTION"]

  /** Every keyword has seven characters. */
  const KeywordLength: nat := 7

  /** The characters `\s` matches in a text pattern: those for which Python's
      `str.isspace()` holds. */
  predicate IsSpace(c: char)
  {
    var x := c as int;
    || (9 <= x <= 13) || (28 <= x <= 32) || x == 0x85 || x == 0xA0 || x == 0x1680
    || (0x2000 <= x <= 0x200A) || x == 0x2028 || x == 0x2029 || x == 0x202F
    || x == 0x205F || x == 0x3000
  }

  /** `^` in multi-line mode: the start of the text or just after a newline. */
  predicate LineStart(s: string, i: nat)
  {
    i == 0 || (0 < i <= |s| && s[i - 1] == '\n')
  }

  /** The end of the run of whitespace starting at `i`. */
  function SpacesEnd(s: string, i: nat): (j: nat)
    requires i <= |s|
    ensures i <= j <= |s|
    ensures forall q :: i <= q < j ==> IsSpace(s[q])
    ensures j == |s| || !IsSpace(s[j])
    decreases |s| - i
  {
    if i < |s| && IsSpace(s[i]) then SpacesEnd(s, i + 1) else i
  }

  /** The end of the run of digits starting at `i`. */
  function DigitsEnd(s: string, i: nat): (j: nat)
    requires i <= |s|
    ensures i <= j <= |s|
    ensures forall q :: i <= q < j ==> IsDigit(s[q])
    ensures j == |s| || !IsDigit(s[j])
    decreases |s| - i
  {
    if i < |s| && IsDigit(s[i]) then DigitsEnd(s, i + 1) else i
  }

  /** The end of the match of keyword, whitespace and digits at `i`, if any
      (ignoring the line-start anchor). */
  function MatchEnd(s: string, i: nat): Option<nat>
    requires i <= |s|
  {
    if i + KeywordLength <= |s| && s[i..i + KeywordLength] in Keywords then
      var j := SpacesEnd(s, i + KeywordLength);
      if j == i + KeywordLength then None
      else
        var k := DigitsEnd(s, j);
        if k == j then None else Some(k)
    else None
  }

  /** The leftmost match at or after position `i`. */
  function SearchFrom(s: string, i: nat): Option<string>
    requires i <= |s|
    decreases |s| - i
  {
    if LineStart(s, i) && MatchEnd(s, i).Some? then Some(s[i..MatchEnd(s, i).value])
    else if i == |s| then None
    else SearchFrom(s, i + 1)
  }

  /** `chapter_pattern.search(text)`, as the matched text. */
  function Search(s: string): Option<string>
  {
    SearchFrom(s, 0)
  }

  /** `s[a..b]` is whitespace only. */
  ghost predicate SpaceRun(s: string, a: int, b: int)
  {
    0 <= a <= b <= |s| && forall q :: a <= q < b ==> IsSpace(s[q])
  }

  /** `s[a..b]` is digits only. */
  ghost predicate DigitRun(s: string, a: int, b: int)
  {
    0 <= a <= b <= |s| && forall q :: a <= q < b ==> IsDigit(s[q])
  }

  /** A heading starts at `i`: a line start, a keyword, a non-empty
      whitespace run and a non-empty digit run. */
  ghost predicate HeadingAt(s: string, i: int)
  {
    && 0 <= i && i + KeywordLength <= |s|
    && LineStart(s, i)
    && s[i..i + KeywordLength] in Keywords
    && exists j, k :: i + KeywordLength < j < k && SpaceRun(s, i + KeywordLength, j) && DigitRun(s, j, k)
  }

  /** `m` is what the pattern matches at `i`: keyword, whitespace, and the
      whole run of digits that follows. */
  ghost predicate MatchedAt(s: string, i: int, m: string)
  {
    && 0 <= i && i + |m| <= |s| && s[i..i + |m|] == m
    && HeadingAt(s, i)
    && |m| > KeywordLength && m[..KeywordLength] in Keywords
    && (exists j :: KeywordLength < j < |m| && SpaceRun(m, KeywordLength, j) && DigitRun(m, j, |m|))
    && (i + |m| == |s| || !IsDigit(s[i + |m|]))
  }

  lemma {:induction false} DigitIsNotSpace(c: char)
    requires IsDigit(c)
    ensures !IsSpace(c)
  {
  }

  /** The whitespace run from `a` ends at the first non-space character. */
  lemma {:induction false} SpacesEndStopsAt(s: string, a: nat, j: nat)
    requires SpaceRun(s, a, j) && j < |s| && !IsSpace(s[j])
    ensures SpacesEnd(s, a) == j
    decreases j - a
  {
    if a < j {
      SpacesEndStopsAt(s, a + 1, j);
    }
  }

  /** The digit run from `j` reaches at least as far as any run of digits. */
  lemma {:induction false} DigitsEndReaches(s: string, j: nat, k: nat)
    requires DigitRun(s, j, k)
    ensures DigitsEnd(s, j) >= k
    decreases k - j
  {
    if j < k {
      DigitsEndReaches(s, j + 1, k);
    }
  }

  /** The matcher at a position agrees with the definition of a heading. */
  lemma {:induction false} MatchEndSpec(s: string, i: nat)
    requires i <= |s|
    ensures LineStart(s, i) ==> (MatchEnd(s, i).Some? <==> HeadingAt(s, i))
    ensures LineStart(s, i) && MatchEnd(s, i).Some? ==>
              i < MatchEnd(s, i).value <= |s| && MatchedAt(s, i, s[i..MatchEnd(s, i).value])
  {
    if LineStart(s, i) && HeadingAt(s, i) {
      MatchEndComplete(s, i);
    }
    if LineStart(s, i) && MatchEnd(s, i).Some? {
      MatchEndSound(s, i);
    }
  }

  /** A heading at a position is found by the matcher. */
  lemma {:induction false} MatchEndComplete(s: string, i: nat)
    requires i <= |s| && HeadingAt(s, i)
    ensures MatchEnd(s, i).Some?
  {
    var a := i + KeywordLength;
    var j, k :| a < j < k && SpaceRun(s, a, j) && DigitRun(s, j, k);
    DigitIsNotSpace(s[j]);
    SpacesEndStopsAt(s, a, j);
    DigitsEndReaches(s, j, k);
  }

  /** What the matcher finds at a line start is a heading, matched with the
      whole digit run. */
  lemma {:induction false} MatchEndSound(s: string, i: nat)
    requires i <= |s| && LineStart(s, i) && MatchEnd(s, i).Some?
    ensures i < MatchEnd(s, i).value <= |s| && MatchedAt(s, i, s[i..MatchEnd(s, i).value])
  {
    var a := i + KeywordLength;
    var j := SpacesEnd(s, a);
    var k := DigitsEnd(s, j);
    assert MatchEnd(s, i) == Some(k);
    assert SpaceRun(s, a, j) && DigitRun(s, j, k);
    assert HeadingAt(s, i);
    var m := s[i..k];
    assert m[..KeywordLength] == s[i..a];
    assert SpaceRun(m, KeywordLength, j - i) && DigitRun(m, j - i, |m|);
  }

  /** No heading starts at a position from `a` up to, not including, `b`. */
  ghost predicate NoHeadingIn(s: string, a: int, b: int)
  {
    forall q :: a <= q < b ==> !HeadingAt(s, q)
  }

  /** A position without a heading extends a heading-free range after it. */
  lemma {:induction false} NoHeadingBefore(s: string, i: int, p: int)
    requires !HeadingAt(s, i) && NoHeadingIn(s, i + 1, p)
    ensures NoHeadingIn(s, i, p)
  {
    forall q | i <= q < p
      ensures !HeadingAt(s, q)
    {
      if q != i {
        assert i + 1 <= q < p;
      }
    }
  }

  /** Search from `i` finds the leftmost heading at or after `i`, or reports
      that there is none. */
  lemma {:induction false} SearchFromSpec(s: string, i: nat)
    requires i <= |s|
    ensures SearchFrom(s, i).None? <==> NoHeadingIn(s, i, |s| + 1)
    ensures SearchFrom(s, i).Some? ==>
              exists p :: i <= p <= |s| && MatchedAt(s, p, SearchFrom(s, i).value) && NoHeadingIn(s, i, p)
    decreases |s| - i
  {
    MatchEndSpec(s, i);
    if LineStart(s, i) && MatchEnd(s, i).Some? {
      var m := s[i..MatchEnd(s, i).value];
      assert SearchFrom(s, i) == Some(m);
      assert MatchedAt(s, i, m) && NoHeadingIn(s, i, i);
    } else if i == |s| {
      assert SearchFrom(s, i) == None;
    } else {
      assert !HeadingAt(s, i);
      SearchFromSpec(s, i + 1);
      assert SearchFrom(s, i) == SearchFrom(s, i + 1);
      if SearchFrom(s, i).Some? {
        var m := SearchFrom(s, i).value;
        var p :| i + 1 <= p <= |s| && MatchedAt(s, p, m) && NoHeadingIn(s, i + 1, p);
        NoHeadingBefore(s, i, p);
      } else {
        NoHeadingBefore(s, i, |s| + 1);
      }
    }
  }

  /** The search finds a heading exactly when the text holds one at some
      line start, and it returns the leftmost one. */
  lemma {:induction false} SearchSpec(s: string)
    ensures Search(s).None? <==> forall p :: 0 <= p <= |s| ==> !HeadingAt(s, p)
    ensures Search(s).Some? ==>
              exists p :: 0 <= p <= |s| && MatchedAt(s, p, Search(s).value) &&
                          forall q :: 0 <= q < p ==> !HeadingAt(s, q)
  {
    SearchFromSpec(s, 0);
  }
}

=== FILE: exceptions.dfy ===
/** The application's exception hierarchy (`AIDEException` and its
    subclasses), the few Python built-in exceptions the core raises, and a
    `Result` type that carries either a value or a raised exception. */
module Exceptions {
  import opened Values
  import opened Strings

  /** Exception classes. `PyException` is Python's `Exception`. */
  datatype ExcClass =
    | PyException
    | PyValueError
    | PyLookupError
    | PyKeyError
    | PyIndexError
    | AIDEException
    | AIDEDatabaseException
    | AIProviderException
    | EntityNotFoundException
    | DuplicateEntityException
    | DatabaseConnectionException
    | DatabaseTransactionException

  /** The direct base class of each class (`None` for `Exception` itself). */
  function Parent(c: ExcClass): Option<ExcClass>
  {
    match c
    case PyException => None
    case PyValueError => Some(PyException)
    case PyLookupError => Some(PyException)
    case PyKeyError => Some(PyLookupError)
    case PyIndexError => Some(PyLookupError)
    case AIDEException => Some(PyException)
    case AIDEDatabaseException => Some(AIDEException)
    case AIProviderException => Some(AIDEException)
    case EntityNotFoundException => Some(AIDEDatabaseException)
    case DuplicateEntityException => Some(AIDEDatabaseException)
    case DatabaseConnectionException => Some(AIDEDatabaseException)
    case DatabaseTransactionException => Some(AIDEDatabaseException)
  }

  /** Distance from `Exception` in the class tree. */
  function Depth(c: ExcClass): nat
  {
    match c
    case PyException => 0
    case PyValueError => 1
    case PyLookupError => 1
    case AIDEException => 1
    case PyKeyError => 2
    case PyIndexError => 2
    case AIDEDatabaseException => 2
    case AIProviderException => 2
    case _ => 3
  }

  /** The method resolution order of a class: the class, its parent, ...,
      `Exception`. */
  function Mro(c: ExcClass): (r: seq<ExcClass>)
    ensures |r| > 0 && r[0] == c && r[|r| - 1] == PyException
    decreases Depth(c)
  {
    match Parent(c)
    case None => [c]
    case Some(p) => [c] + Mro(p)
  }

  /** `issubclass(c, d)`. */
  predicate IsSubclass(c: ExcClass, d: ExcClass)
  {
    d in Mro(c)
  }

  /** A raised exception. `HttpError` is the web framework's `HTTPException`,
      whose handling belongs to the framework; every other exception carries
      its class, its message and its `details` (`None` is `JNull`). */
  datatype Exception =
    | Raised(cls: ExcClass, message: string, details: Json)
    | HttpError(status: int, detail: string)

  /** Python's `str(e)`: the message, quoted for a `KeyError`; the framework
      renders an `HTTPException` as `"{status}: {detail}"`. */
  function Str(e: Exception): string
  {
    match e
    case Raised(c, m, _) => if c == PyKeyError then Repr(m) else m
    case HttpError(s, d) => IntToString(s) + ": " + d
  }

  /** Either a value or a raised exception. Supports `:-`. */
  datatype Result<+T> = Ok(value: T) | Err(error: Exception) {
    predicate IsFailure()
    {
      Err?
    }

    function PropagateFailure<U>(): Result<U>
      requires Err?
    {
      Err(error)
    }

    function Extract(): T
      requires Ok?
    {
      value
    }
  }

  function ValueError(message: string): Exception
  {
    Raised(PyValueError, message, JNull)
  }

  function KeyError(message: string): Exception
  {
    Raised(PyKeyError, message, JNull)
  }

  function IndexError(message: string): Exception
  {
    Raised(PyIndexError, message, JNull)
  }

  /** `AIDEException(message, details=None)` and its subclasses that take
      the base constructor unchanged. */
  function AideError(cls: ExcClass, message: string, details: Json): Exception
  {
    Raised(cls, message, details)
  }

  /** `EntityNotFoundException(entity, entity_id)`; `entityId` is `str(entity_id)`. */
  function EntityNotFound(entity: string, entityId: string): Exception
  {
    Raised(EntityNotFoundException, entity + " not found",
           JObject(map["entity" := JString(entity), "id" := JString(entityId)]))
  }

  /** `DuplicateEntityException(entity, field, value)`; `value` is `str(value)`. */
  function DuplicateEntity(entity: string, field: string, value: string): Exception
  {
    Raised(DuplicateEntityException, entity + " with " + field + "='" + value + "' already exists",
           JObject(map["entity" := JString(entity), "field" := JString(field), "value" := JString(value)]))
  }

  /** `DatabaseConnectionException()`. */
  function DatabaseConnection(): Exception
  {
    Raised(DatabaseConnectionException, "Database connection failed", JNull)
  }

  /** The method resolution order of every class, written out. */
  lemma {:induction false} MroTable(c: ExcClass)
    ensures Mro(c) == match c
      case PyException => [PyException]
      case PyValueError => [PyValueError, PyException]
      case PyLookupError => [PyLookupError, PyException]
      case PyKeyError => [PyKeyError, PyLookupError, PyException]
      case PyIndexError => [PyIndexError, PyLookupError, PyException]
      case AIDEException => [AIDEException, PyException]
      case AIDEDatabaseException => [AIDEDatabaseException, AIDEException, PyException]
      case AIProviderException => [AIProviderException, AIDEException, PyException]
      case _ => [c, AIDEDatabaseException, AIDEException, PyException]
  {
    assert Mro(AIDEException) == [AIDEException, PyException];
    assert Mro(PyLookupError) == [PyLookupError, PyException];
    assert Mro(AIDEDatabaseException) == [AIDEDatabaseException] + Mro(AIDEException);
    match c
    case PyKeyError => assert Mro(c) == [c] + Mro(PyLookupError);
    case PyIndexError => assert Mro(c) == [c] + Mro(PyLookupError);
    case AIDEDatabaseException => assert Mro(c) == [c] + Mro(AIDEException);
    case AIProviderException => assert Mro(c) == [c] + Mro(AIDEException);
    case EntityNotFoundException => assert Mro(c) == [c] + Mro(AIDEDatabaseException);
    case DuplicateEntityException => assert Mro(c) == [c] + Mro(AIDEDatabaseException);
    case DatabaseConnectionException => assert Mro(c) == [c] + Mro(AIDEDatabaseException);
    case DatabaseTransactionException => assert Mro(c) == [c] + Mro(AIDEDatabaseException);
    case _ =>
  }

  /** The database errors are exactly `AIDEDatabaseException` and its four
      subclasses (not-found, duplicate, unreachable, transaction). */
  lemma {:induction false} DatabaseClasses(c: ExcClass)
    ensures IsSubclass(c, AIDEDatabaseException) <==>
            c in {AIDEDatabaseException, EntityNotFoundException, DuplicateEntityException,
                  DatabaseConnectionException, DatabaseTransactionException}
  {
    MroTable(c);
  }

  /** The application errors are the database errors, the provider error and
      `AIDEException` itself; Python's built-in errors are not among them. */
  lemma {:induction false} AideClasses(c: ExcClass)
    ensures IsSubclass(c, AIDEException) <==>
            c in {AIDEException, AIProviderException, AIDEDatabaseException, EntityNotFoundException,
                  DuplicateEntityException, DatabaseConnectionException, DatabaseTransactionException}
  {
    MroTable(c);
  }

  /** Every class is a subclass of `Exception`, and `issubclass` is reflexive. */
  lemma {:induction false} EveryClassIsException(c: ExcClass)
    ensures IsSubclass(c, PyException)
    ensures IsSubclass(c, c)
  {
  }
}

=== FILE: extraction.dfy ===
/** The whole extraction: its failures, the order in which the strategies
    are tried, and what every successful result looks like. */
module ChapterExtraction {
  import opened Values
  import opened Strings
  import opened Exceptions
  import ChapterPattern
  import opened PdfParser
  import opened PdfSegmentation
  import opened Scan

  const EncryptedMessage: string := "PDF is encrypted. Please provide an unencrypted version."
  const NoPagesMessage: string := "PDF has no pages."
  const FailurePrefix: string := "Failed to parse PDF: "

  /** The extraction fails exactly when the document does not open, is
      encrypted, has no pages, or has a table of contents whose level-1
      ranges cannot be read; every failure is a `ValueError` whose message
      is the prefix followed by the original error's text, including the
      two raised inside the extraction itself. */
  lemma {:induction false} ExtractionFailures(opening: Result<Document>)
    ensures ExtractChapters(opening).Err? <==>
              || opening.Err?
              || opening.value.isEncrypted
              || |opening.value.pages| == 0
              || FromToc(opening.value).Err?
    ensures opening.Err? ==> ExtractChapters(opening) == Err(ValueError(FailurePrefix + Str(opening.error)))
    ensures opening.Ok? && opening.value.isEncrypted ==>
              ExtractChapters(opening) == Err(ValueError(FailurePrefix + EncryptedMessage))
    ensures opening.Ok? && !opening.value.isEncrypted && |opening.value.pages| == 0 ==>
              ExtractChapters(opening) == Err(ValueError(FailurePrefix + NoPagesMessage))
    ensures opening.Ok? && !opening.value.isEncrypted && |opening.value.pages| > 0 && FromToc(opening.value).Err? ==>
              ExtractChapters(opening) == Err(ValueError(FailurePrefix + "page not in document"))
    ensures ExtractChapters(opening).Err? ==>
              && ExtractChapters(opening).error.Raised?
              && ExtractChapters(opening).error.cls == PyValueError
              && |FailurePrefix| <= |ExtractChapters(opening).error.message|
              && ExtractChapters(opening).error.message[..|FailurePrefix|] == FailurePrefix
  {
    if opening.Ok? && !opening.value.isEncrypted && |opening.value.pages| > 0 {
      TocOutcome(opening.value);
    }
  }

  /** Table-of-contents chapters win when there are any; otherwise the
      pattern chapters when some page holds a heading (heading detection
      never yields any); otherwise the page ranges. */
  lemma {:induction false} ExtractionOrder(doc: Document)
    requires !doc.isEncrypted && |doc.pages| > 0 && FromToc(doc).Ok?
    ensures |FromToc(doc).value| > 0 ==> ExtractChapters(Ok(doc)) == Ok(FromToc(doc).value)
    ensures |FromToc(doc).value| == 0 && (exists q :: 0 <= q < |doc.pages| && ChapterPattern.Search(doc.pages[q]).Some?) ==>
              ExtractChapters(Ok(doc)) == Ok(FromPatterns(doc))
    ensures |FromToc(doc).value| == 0 && (forall q :: 0 <= q < |doc.pages| ==> ChapterPattern.Search(doc.pages[q]).None?) ==>
              ExtractChapters(Ok(doc)) == Ok(FromPageRanges(doc))
  {
    PatternsSpec(doc);
  }

  /** A table of contents with no level-1 entry yields no chapters of its
      own, so the later strategies decide. */
  lemma {:induction false} NoTopLevelFallsThrough(doc: Document)
    requires |doc.pages| > 0 && forall t :: 0 <= t < |doc.toc| ==> doc.toc[t].level != 1
    ensures FromToc(doc) == Ok([])
  {
    KeptFromNone(doc.toc, IsTopLevel, 0);
    TocOutcome(doc);
    if |doc.toc| > 0 {
      TocShape(doc);
    }
  }

  /** Every successful extraction yields at least one chapter; the chapters
      are chained (each ends on the page before the next one starts, the
      last on the document's last page) and carry distinct names. */
  lemma {:induction false} ExtractionChained(opening: Result<Document>)
    requires ExtractChapters(opening).Ok?
    ensures |ExtractChapters(opening).value| > 0
    ensures Chained(ExtractChapters(opening).value, |opening.value.pages|)
    ensures DistinctIds(ExtractChapters(opening).value)
  {
    var doc := opening.value;
    if |FromToc(doc).value| > 0 {
      TocChained(doc);
      TocIds(doc);
    } else if |FromPatterns(doc)| > 0 {
      PatternsSpec(doc);
    } else {
      PageRangesSpec(doc);
    }
  }

  /** When no table-of-contents chapter is found, the chapters partition the
      pages from the first chapter's start to the end, and their texts,
      joined by a blank line, are the text of those pages. */
  lemma {:induction false} ExtractionCovers(opening: Result<Document>)
    requires ExtractChapters(opening).Ok? && |FromToc(opening.value).value| == 0
    ensures HoldsPages(opening.value.pages, ExtractChapters(opening).value)
    ensures Ascending(ExtractChapters(opening).value)
    ensures Join(Texts(ExtractChapters(opening).value), PageSeparator) ==
              PageText(opening.value.pages, ExtractChapters(opening).value[0].startPage, |opening.value.pages| - 1)
  {
    var doc := opening.value;
    var r := ExtractChapters(opening).value;
    assert Segment(doc) == Ok(r);
    if |FromPatterns(doc)| > 0 {
      assert r == FromPatterns(doc);
      PatternsSpec(doc);
    } else {
      assert r == FromPageRanges(doc);
      PageRangesSpec(doc);
    }
    ChainedTexts(doc.pages, r);
  }
}

=== FILE: handlers.dfy ===
/** How a raised exception becomes an HTTP response: the handlers the
    application registers per exception class, chosen the way the web
    framework chooses them (the first class along the exception's method
    resolution order that has a handler). */
module ErrorHandlers {
  import opened Values
  import opened Exceptions

  /** The registered handlers. `GlobalHandler` is the catch-all registered
      for `Exception`. */
  datatype Handler =
    | NotFoundHandler
    | DuplicateHandler
    | DbConnectionHandler
    | DbErrorHandler
    | AideHandler
    | GlobalHandler

  /** The handler table: five AIDE handlers and the global one for `Exception`. */
  function Registered(c: ExcClass): Option<Handler>
  {
    match c
    case EntityNotFoundException => Some(NotFoundHandler)
    case DuplicateEntityException => Some(DuplicateHandler)
    case DatabaseConnectionException => Some(DbConnectionHandler)
    case AIDEDatabaseException => Some(DbErrorHandler)
    case AIDEException => Some(AideHandler)
    case PyException => Some(GlobalHandler)
    case _ => None
  }

  /** The first class of `classes` that has a registered handler. */
  function FirstHandler(classes: seq<ExcClass>): (h: Option<Handler>)
    ensures h.Some? <==> exists i :: 0 <= i < |classes| && Registered(classes[i]).Some?
    ensures h.Some? ==> exists i :: 0 <= i < |classes| && Registered(classes[i]) == h &&
                                    forall j :: 0 <= j < i ==> Registered(classes[j]).None?
  {
    if |classes| == 0 then None
    else if Registered(classes[0]).Some? then Registered(classes[0])
    else
      var h := FirstHandler(classes[1..]);
      assert forall i :: 1 <= i < |classes| ==> classes[i] == classes[1..][i - 1];
      h
  }

  /** The handler the framework dispatches an exception of class `c` to. */
  function HandlerFor(c: ExcClass): Handler
  {
    var h := FirstHandler(Mro(c));
    assert Registered(Mro(c)[|Mro(c)| - 1]).Some?;
    h.value
  }

  /** Dispatch along the method resolution order, class by class: each
      database error with its own handler gets it, other database errors the
      database handler, other application errors the AIDE handler, and the
      built-in errors the global handler. */
  lemma {:induction false} DispatchTable(c: ExcClass)
    ensures HandlerFor(c) ==
            match c
            case EntityNotFoundException => NotFoundHandler
            case DuplicateEntityException => DuplicateHandler
            case DatabaseConnectionException => DbConnectionHandler
            case AIDEDatabaseException => DbErrorHandler
            case DatabaseTransactionException => DbErrorHandler
            case AIDEException => AideHandler
            case AIProviderException => AideHandler
            case _ => GlobalHandler
  {
    if Registered(c).Some? {
      DispatchDirect(c);
    } else {
      DispatchInherited(c);
    }
  }

  /** A class with its own handler is dispatched to it. */
  lemma {:induction false} DispatchDirect(c: ExcClass)
    requires Registered(c).Some?
    ensures HandlerFor(c) == Registered(c).value
  {
    assert Registered(Mro(c)[0]).Some?;
  }

  /** A class without its own handler is dispatched to its nearest
      ancestor's. */
  lemma {:induction false} DispatchInherited(c: ExcClass)
    requires Registered(c).None?
    ensures c == DatabaseTransactionException ==> HandlerFor(c) == DbErrorHandler
    ensures c == AIProviderException ==> HandlerFor(c) == AideHandler
    ensures c in {PyValueError, PyLookupError, PyKeyError, PyIndexError} ==> HandlerFor(c) == GlobalHandler
  {
    if c == DatabaseTransactionException {
      InheritedHandler(c, AIDEDatabaseException);
      DispatchDirect(AIDEDatabaseException);
    } else if c == AIProviderException {
      InheritedHandler(c, AIDEException);
      DispatchDirect(AIDEException);
    } else if c == PyKeyError || c == PyIndexError {
      InheritedHandler(PyLookupError, PyException);
      InheritedHandler(c, PyLookupError);
      DispatchDirect(PyException);
    } else {
      InheritedHandler(c, PyException);
      DispatchDirect(PyException);
    }
  }

  /** A class without a handler is dispatched as its parent is. */
  lemma {:induction false} InheritedHandler(c: ExcClass, parent: ExcClass)
    requires Registered(c).None? && Parent(c) == Some(parent)
    ensures HandlerFor(c) == HandlerFor(parent)
  {
    var m := Mro(c);
    assert m == [c] + Mro(parent);
    FirstHandlerSkip(m);
    assert m[1..] == Mro(parent);
  }

  /** A class without a handler is skipped. */
  lemma {:induction false} FirstHandlerSkip(classes: seq<ExcClass>)
    requires |classes| > 0 && Registered(classes[0]).None?
    ensures FirstHandler(classes) == FirstHandler(classes[1..])
  {
  }

  datatype Response = Response(status: int, body: Json)

  /** `{"error": message, "details": details}`. */
  function ErrorBody(message: string, details: Json): Json
  {
    JObject(map["error" := JString(message), "details" := details])
  }

  /** The global handler's fixed body. */
  const InternalErrorBody: Json :=
    JObject(map["error" := JObject(map["code" := JString("INTERNAL_SERVER_ERROR"),
                                       "message" := JString("An unexpected internal error occurred.")])])

  /** What a handler answers for an exception. */
  function Apply(h: Handler, message: string, details: Json): Response
  {
    match h
    case NotFoundHandler => Response(404, ErrorBody(message, details))
    case DuplicateHandler => Response(409, ErrorBody(message, details))
    case DbConnectionHandler => Response(503, JObject(map["error" := JString("Service temporarily unavailable")]))
    case DbErrorHandler => Response(500, JObject(map["error" := JString("An unexpected error occurred")]))
    case AideHandler => Response(500, ErrorBody(message, details))
    case GlobalHandler => Response(500, InternalErrorBody)
  }

  /** The response for an exception that escapes a route. An `HTTPException`
      goes to the framework's own handler: its status and `{"detail": ...}`.
      Any other exception goes to the handler its class dispatches to: 404
      and 409 with the message and details for not-found and duplicate
      errors, 503 for an unreachable database, a fixed 500 for the other
      database errors, 500 with the message and details for the other
      application errors, and the generic 500 for everything else. */
  function Respond(e: Exception): (r: Response)
    ensures e.HttpError? ==> r == Response(e.status, JObject(map["detail" := JString(e.detail)]))
    ensures e.Raised? && e.cls == EntityNotFoundException ==> r == Response(404, ErrorBody(e.message, e.details))
    ensures e.Raised? && e.cls == DuplicateEntityException ==> r == Response(409, ErrorBody(e.message, e.details))
    ensures e.Raised? && e.cls == DatabaseConnectionException ==>
              r == Response(503, JObject(map["error" := JString("Service temporarily unavailable")]))
    ensures e.Raised? && e.cls in {AIDEDatabaseException, DatabaseTransactionException} ==>
              r == Response(500, JObject(map["error" := JString("An unexpected error occurred")]))
    ensures e.Raised? && e.cls in {AIDEException, AIProviderException} ==> r == Response(500, ErrorBody(e.message, e.details))
    ensures e.Raised? && !IsSubclass(e.cls, AIDEException) ==> r == Response(500, InternalErrorBody)
  {
    match e
    case HttpError(s, d) => Response(s, JObject(map["detail" := JString(d)]))
    case Raised(c, m, d) =>
      HandledByClass(c, m, d);
      Apply(HandlerFor(c), m, d)
  }

  /** What the dispatched handler answers for each class of raised
      exception. */
  lemma {:induction false} HandledByClass(c: ExcClass, message: string, details: Json)
    ensures c == EntityNotFoundException ==> Apply(HandlerFor(c), message, details) == Response(404, ErrorBody(message, details))
    ensures c == DuplicateEntityException ==> Apply(HandlerFor(c), message, details) == Response(409, ErrorBody(message, details))
    ensures c == DatabaseConnectionException ==>
              Apply(HandlerFor(c), message, details) == Response(503, JObject(map["error" := JString("Service temporarily unavailable")]))
    ensures c in {AIDEDatabaseException, DatabaseTransactionException} ==>
              Apply(HandlerFor(c), message, details) == Response(500, JObject(map["error" := JString("An unexpected error occurred")]))
    ensures c in {AIDEException, AIProviderException} ==> Apply(HandlerFor(c), message, details) == Response(500, ErrorBody(message, details))
    ensures !IsSubclass(c, AIDEException) ==> Apply(HandlerFor(c), message, details) == Response(500, InternalErrorBody)
  {
    AideClasses(c);
    if c in {AIDEDatabaseException, DatabaseTransactionException} {
      DatabaseErrorHandled(c, message, details);
    } else if c in {AIDEException, AIProviderException} {
      ApplicationErrorHandled(c, message, details);
    } else if !IsSubclass(c, AIDEException) {
      UnexpectedErrorHandled(c, message, details);
    } else {
      DirectErrorHandled(c, message, details);
    }
  }

  /** Not-found, duplicate and unreachable errors have handlers of their own. */
  lemma {:induction false} DirectErrorHandled(c: ExcClass, message: string, details: Json)
    requires c in {EntityNotFoundException, DuplicateEntityException, DatabaseConnectionException}
    ensures c == EntityNotFoundException ==> Apply(HandlerFor(c), message, details) == Response(404, ErrorBody(message, details))
    ensures c == DuplicateEntityException ==> Apply(HandlerFor(c), message, details) == Response(409, ErrorBody(message, details))
    ensures c == DatabaseConnectionException ==>
              Apply(HandlerFor(c), message, details) == Response(503, JObject(map["error" := JString("Service temporarily unavailable")]))
  {
    DispatchDirect(c);
  }

  /** Other database errors get the database handler's fixed 500. */
  lemma {:induction false} DatabaseErrorHandled(c: ExcClass, message: string, details: Json)
    requires c in {AIDEDatabaseException, DatabaseTransactionException}
    ensures Apply(HandlerFor(c), message, details) == Response(500, JObject(map["error" := JString("An unexpected error occurred")]))
  {
    DispatchTable(c);
  }

  /** Other application errors get the application handler's 500 with details. */
  lemma {:induction false} ApplicationErrorHandled(c: ExcClass, message: string, details: Json)
    requires c in {AIDEException, AIProviderException}
    ensures Apply(HandlerFor(c), message, details) == Response(500, ErrorBody(message, details))
  {
    DispatchTable(c);
  }

  /** Python's own errors get the global handler's generic 500. */
  lemma {:induction false} UnexpectedErrorHandled(c: ExcClass, message: string, details: Json)
    requires !IsSubclass(c, AIDEException)
    ensures Apply(HandlerFor(c), message, details) == Response(500, InternalErrorBody)
  {
    AideClasses(c);
    DispatchTable(c);
  }

  /** A not-found error answers 404 with `"{entity} not found"` and the
      entity and id as details. */
  lemma {:induction false} NotFoundResponse(entity: string, entityId: string)
    ensures Respond(EntityNotFound(entity, entityId)) ==
            Response(404, ErrorBody(entity + " not found",
                                    JObject(map["entity" := JString(entity), "id" := JString(entityId)])))
  {
    var e := EntityNotFound(entity, entityId);
    assert e.Raised? && e.cls == EntityNotFoundException;
  }

  /** A duplicate error answers 409 with the formatted message and the
      entity, field and value as details. */
  lemma {:induction false} DuplicateResponse(entity: string, field: string, value: string)
    ensures Respond(DuplicateEntity(entity, field, value)) ==
            Response(409, ErrorBody(entity + " with " + field + "='" + value + "' already exists",
                                    JObject(map["entity" := JString(entity), "field" := JString(field),
                                                "value" := JString(value)])))
  {
    var e := DuplicateEntity(entity, field, value);
    assert e.Raised? && e.cls == DuplicateEntityException;
  }

  /** Only the database-unreachable error answers 503, and no error of the
      application or of Python answers a status outside {404, 409, 500, 503}. */
  lemma {:induction false} StatusCodes(e: Exception)
    requires e.Raised?
    ensures Respond(e).status in {404, 409, 500, 503}
    ensures Respond(e).status == 503 <==> e.cls == DatabaseConnectionException
    ensures Respond(e).status == 404 <==> e.cls == EntityNotFoundException
    ensures Respond(e).status == 409 <==> e.cls == DuplicateEntityException
  {
    AideClasses(e.cls);
  }

  /** A database error other than not-found, duplicate or unreachable never
      exposes its message or details. */
  lemma {:induction false} DatabaseDetailsHidden(e: Exception)
    requires e.Raised? && IsSubclass(e.cls, AIDEDatabaseException)
    requires e.cls !in {EntityNotFoundException, DuplicateEntityException}
    ensures "details" !in Respond(e).body.fields
    ensures Respond(e).status in {500, 503}
  {
    DatabaseClasses(e.cls);
  }
}

=== FILE: pdf_parser.dfy ===
/** Chapter segmentation of a PDF document. The document is what the PDF
    library reports about it: the text of each page, the table of contents
    (level, title, 1-based page) and whether it is encrypted. Chapters come
    from the first strategy that yields any: the table of contents, heading
    detection (not implemented: always none), "Chapter N" patterns, and
    finally fixed ten-page ranges. */
module PdfParser {
  import opened Values
  import opened Strings
  import opened Exceptions
  import ChapterPattern
  import opened Scan

  /** A chapter: identifier, title, 0-based inclusive page bounds and text. */
  datatype Chapter = Chapter(id: string, title: string, startPage: int, endPage: int, text: string)

  /** A table-of-contents entry; `page` is 1-based. */
  datatype TocEntry = TocEntry(level: int, title: string, page: int)

  /** An opened PDF document. */
  datatype Document = Document(pages: seq<string>, toc: seq<TocEntry>, isEncrypted: bool)

  const PageSeparator: string := "\n\n"
  const PagesPerChapter: nat := 10

  /** What the PDF library raises when asked for a page at or past the end. */
  const PageNotInDocument: Exception := IndexError("page not in document")

  /** The texts of pages `s..e` (inclusive, all inside the document) joined
      by a blank line. */
  function PageText(pages: seq<string>, s: int, e: int): string
    requires 0 <= s <= e + 1 <= |pages|
  {
    Join(pages[s..e + 1], PageSeparator)
  }

  /** The page the PDF library loads for page number `i` below the page
      count: a negative number has the page count added until it is not. */
  function PageNumber(i: int, n: nat): (j: nat)
    requires n > 0 && i < n
    ensures j < n
    ensures 0 <= i ==> j == i
    ensures -(n as int) <= i < 0 ==> j == i + n
    ensures j == i % n
    decreases if i < 0 then -i else 0
  {
    if i < 0 then ModStep(i, n); PageNumber(i + n, n)
    else ModUnique(i, n, 0, i); i
  }

  /** Adding the modulus keeps the remainder. */
  lemma {:induction false} ModStep(i: int, n: nat)
    requires n > 0
    ensures (i + n) % n == i % n
  {
    var q, r := i / n, i % n;
    assert i + n == (q + 1) * n + r;
    ModUnique(i + n, n, q + 1, r);
  }

  /** The remainder is the only `r` in `0..n` with `x == q * n + r`. */
  lemma {:induction false} ModUnique(x: int, n: nat, q: int, r: int)
    requires n > 0 && 0 <= r < n && x == q * n + r
    ensures x % n == r
  {
    var q' := x / n;
    if q > q' {
      MulGap(q', q, n);
    } else if q < q' {
      MulGap(q, q', n);
    }
  }

  lemma {:induction false} MulGap(a: int, b: int, n: nat)
    requires a < b
    ensures a * n + n <= b * n
  {
    assert b * n == a * n + n + (b - a - 1) * n;
  }

  /** The pages `s..e` inclusive as the PDF library hands them out, in order. */
  function ReadPages(pages: seq<string>, s: int, e: int): (texts: seq<string>)
    requires |pages| > 0 && e < |pages|
    ensures |texts| == if e < s then 0 else e - s + 1
    decreases e - s
  {
    if e < s then [] else ReadPages(pages, s, e - 1) + [pages[PageNumber(e, |pages|)]]
  }

  /** The text of pages `s..e` inclusive, read one page at a time and joined
      by a blank line. A page number at or past the end raises. */
  function TextRange(pages: seq<string>, s: int, e: int): (r: Result<string>)
    requires |pages| > 0
    ensures r.Err? <==> s <= e && e >= |pages|
    ensures r.Err? ==> r.error == PageNotInDocument
  {
    if e < s then Ok("")
    else if e >= |pages| then Err(PageNotInDocument)
    else Ok(Join(ReadPages(pages, s, e), PageSeparator))
  }

  /** Negative page numbers down to minus the page count read the pages
      counted from the end: `-1` is the last page. */
  lemma {:induction false} ReadPagesWrapped(pages: seq<string>, s: int, e: int)
    requires |pages| > 0 && -|pages| <= s <= e + 1 && e < 0
    ensures ReadPages(pages, s, e) == pages[s + |pages|..e + |pages| + 1]
    decreases e - s
  {
    if s <= e {
      ReadPagesWrapped(pages, s, e - 1);
      assert pages[s + |pages|..e + |pages| + 1] == pages[s + |pages|..e + |pages|] + [pages[e + |pages|]];
    }
  }

  /** Pages inside the document are read directly. */
  lemma {:induction false} ReadPagesInRange(pages: seq<string>, s: int, e: int)
    requires |pages| > 0 && 0 <= s <= e + 1 <= |pages|
    ensures ReadPages(pages, s, e) == pages[s..e + 1]
    decreases e - s
  {
    if s <= e {
      ReadPagesInRange(pages, s, e - 1);
      assert pages[s..e + 1] == pages[s..e] + [pages[e]];
    }
  }

  /** An empty range reads as "", a range inside the document as its pages'
      text. */
  lemma {:induction false} TextRangeSpec(pages: seq<string>, s: int, e: int)
    requires |pages| > 0
    ensures e < s ==> TextRange(pages, s, e) == Ok("")
    ensures 0 <= s <= e < |pages| ==> TextRange(pages, s, e) == Ok(PageText(pages, s, e))
  {
    if 0 <= s <= e < |pages| {
      ReadPagesInRange(pages, s, e);
    }
  }

  /** The whole document's text: every page, joined by a blank line. */
  function ExtractText(doc: Document): (t: string)
    ensures |doc.pages| > 0 ==> TextRange(doc.pages, 0, |doc.pages| - 1) == Ok(t)
    ensures |doc.pages| == 0 ==> t == ""
  {
    if |doc.pages| > 0 then
      TextRangeSpec(doc.pages, 0, |doc.pages| - 1);
      assert doc.pages[0..|doc.pages|] == doc.pages;
      Join(doc.pages, PageSeparator)
    else Join(doc.pages, PageSeparator)
  }

  /** `"ch_" + str(n)`. */
  function ChapterId(n: nat): string
  {
    "ch_" + NatToString(n)
  }

  /** `"section_" + str(n)`. */
  function SectionId(n: nat): string
  {
    "section_" + NatToString(n)
  }

  // ----- table of contents -----

  predicate IsTopLevel(e: TocEntry)
  {
    e.level == 1
  }

  /** The indices of the level-1 entries, in table order. */
  function TopLevel(toc: seq<TocEntry>): seq<nat>
  {
    KeptFrom(toc, IsTopLevel, 0)
  }

  /** The last page of the chapter of entry `i`: two before the 1-based page
      of the next level-1 entry, or the document's last page when none
      follows. */
  function TocEndPage(toc: seq<TocEntry>, i: nat, pageCount: nat): int
    requires i < |toc|
  {
    var j := NextKept(toc, IsTopLevel, i + 1);
    if j < |toc| then toc[j].page - 2 else pageCount - 1
  }

  /** The chapter of entry `i`: from the page before its 1-based page up to
      `TocEndPage`, named after its index in the whole table. Reading its
      text fails when the range ends past the document. */
  function TocChapter(pages: seq<string>, toc: seq<TocEntry>, i: nat): Result<Chapter>
    requires |pages| > 0 && i < |toc|
  {
    var start := toc[i].page - 1;
    var end := TocEndPage(toc, i, |pages|);
    var text :- TextRange(pages, start, end);
    Ok(Chapter(ChapterId(i + 1), toc[i].title, start, end, text))
  }

  /** The chapters of the level-1 entries from index `i` on, in table order;
      the first entry whose text cannot be read stops the scan. */
  function TocChaptersFrom(pages: seq<string>, toc: seq<TocEntry>, i: nat): Result<seq<Chapter>>
    requires |pages| > 0 && i <= |toc|
    decreases |toc| - i
  {
    if i == |toc| then Ok([])
    else if !IsTopLevel(toc[i]) then TocChaptersFrom(pages, toc, i + 1)
    else
      var chapter :- TocChapter(pages, toc, i);
      var rest :- TocChaptersFrom(pages, toc, i + 1);
      Ok([chapter] + rest)
  }

  /** Chapters from the table of contents; none when it is empty. */
  function FromToc(doc: Document): Result<seq<Chapter>>
    requires |doc.pages| > 0
  {
    if |doc.toc| == 0 then Ok([]) else TocChaptersFrom(doc.pages, doc.toc, 0)
  }

  // ----- heading detection -----

  /** Heading detection by font analysis is not implemented: no chapters. */
  function FromHeadings(doc: Document): seq<Chapter>
  {
    []
  }

  // ----- "Chapter N" patterns -----

  /** The heading found on each page, if any. The pattern is searched page by
      page; searching is pure, so the scan below reads these results. */
  function PageHeadings(pages: seq<string>): (heads: seq<Option<string>>)
    ensures |heads| == |pages|
  {
    seq(|pages|, p requires 0 <= p < |pages| => ChapterPattern.Search(pages[p]))
  }

  predicate IsHeading(h: Option<string>)
  {
    h.Some?
  }

  /** The pages holding a heading, in page order. */
  function HeadingPages(heads: seq<Option<string>>): seq<nat>
  {
    KeptFrom(heads, IsHeading, 0)
  }

  /** The chapter of the heading `title` on page `p`, the `found + 1`-th one:
      it runs up to the page before the next heading page, or to the last
      page. */
  function PatternChapter(pages: seq<string>, heads: seq<Option<string>>, p: nat, found: nat, title: string): Chapter
    requires |heads| == |pages| && p < |pages|
  {
    var end := NextKept(heads, IsHeading, p + 1) - 1;
    Chapter(ChapterId(found + 1), title, p, end, TextRange(pages, p, end).value)
  }

  /** The scan over the pages: one chapter per heading page, in page order,
      the `k`-th named `ch_{k+1}`. */
  function PatternChapters(pages: seq<string>, heads: seq<Option<string>>): seq<Chapter>
    requires |heads| == |pages|
  {
    var hp := HeadingPages(heads);
    seq(|hp|, k requires 0 <= k < |hp| => PatternChapter(pages, heads, hp[k], k, heads[hp[k]].value))
  }

  /** Chapters from "Chapter N" / "Section N" headings at line starts. */
  function FromPatterns(doc: Document): seq<Chapter>
  {
    PatternChapters(doc.pages, PageHeadings(doc.pages))
  }

  // ----- fixed page ranges -----

  function Min(a: int, b: int): int
  {
    if a <= b then a else b
  }

  /** `"Pages {start+1}-{end+1}"`: a page range with 1-based page numbers. */
  function RangeTitle(start: int, end: int): string
  {
    "Pages " + IntToString(start + 1) + "-" + IntToString(end + 1)
  }

  /** The range chapter starting at page `start`, the `made + 1`-th one. */
  function RangeChapter(pages: seq<string>, start: nat, made: nat): Chapter
    requires start < |pages|
  {
    var end := Min(start + PagesPerChapter - 1, |pages| - 1);
    Chapter(SectionId(made + 1), RangeTitle(start, end), start, end, TextRange(pages, start, end).value)
  }

  /** The fallback: consecutive ranges of ten pages, one for each start page
      `0, 10, 20, ...` below the page count, the `k`-th named
      `section_{k+1}`. */
  function FromPageRanges(doc: Document): seq<Chapter>
    requires |doc.pages| > 0
  {
    var n := |doc.pages|;
    seq((n + PagesPerChapter - 1) / PagesPerChapter,
        k requires 0 <= k < (n + PagesPerChapter - 1) / PagesPerChapter => RangeChapter(doc.pages, PagesPerChapter * k, k))
  }

  // ----- the whole extraction -----

  /** The body of the extraction, before errors are rewrapped. */
  function Segment(doc: Document): Result<seq<Chapter>>
  {
    if doc.isEncrypted then Err(ValueError("PDF is encrypted. Please provide an unencrypted version."))
    else if |doc.pages| == 0 then Err(ValueError("PDF has no pages."))
    else
      var toc :- FromToc(doc);
      if |toc| > 0 then Ok(toc)
      else
        var headings := FromHeadings(doc);
        if |headings| > 0 then Ok(headings)
        else
          var patterns := FromPatterns(doc);
          if |patterns| > 0 then Ok(patterns)
          else Ok(FromPageRanges(doc))
  }

  /** Every failure, including the document failing to open, is reraised as
      a `ValueError` with the prefix "Failed to parse PDF: ". */
  function ParseFailure(e: Exception): Exception
  {
    ValueError("Failed to parse PDF: " + Str(e))
  }

  /** `extract_chapters`: `opening` is the outcome of opening the bytes. */
  function ExtractChapters(opening: Result<Document>): Result<seq<Chapter>>
  {
    match opening
    case Err(e) => Err(ParseFailure(e))
    case Ok(doc) =>
      match Segment(doc)
      case Ok(chapters) => Ok(chapters)
      case Err(e) => Err(ParseFailure(e))
  }
}

=== FILE: pdf_source.dfy ===
/** The PDF source: its chapters and current chapter, how it is set up from
    an uploaded file, what it hands to generation, chat and the viewer, and
    how it is rebuilt from the stored record. */
module PdfSource {
  import opened Values
  import opened Strings
  import opened Exceptions
  import opened PdfParser
  import opened Registry
  import opened SourceCache
  import ChapterExtraction

  /** A chapter as setup stores it in the source's metadata and as it is read
      back; `end_page` may be absent. */
  datatype StoredChapter = StoredChapter(id: string, title: string, startPage: int, endPage: Option<int>)

  /** A non-empty stored `meta_data` dictionary: its "chapters" entry, `None`
      when the key is absent. A null or empty dictionary is `None` where a
      `Metadata` is optional. */
  datatype Metadata = Metadata(chapters: Option<seq<StoredChapter>>)

  /** A PDF source instance: `id` is the source's id as text. */
  datatype PdfSource = PdfSource(id: string, title: string, cache: CacheState, storagePath: string,
                                 chapters: seq<Chapter>, currentChapterId: Option<string>)

  /** A stored source row, as far as the PDF source reads it; `kind` is its
      `type`. */
  datatype SourceRecord = SourceRecord(id: string, kind: string, title: string, storagePath: Option<string>,
                                       metaData: Option<Metadata>, cacheId: Option<string>,
                                       cacheExpiresAt: Option<int>)

  /** What a successful setup leaves: the set-up source, the cache updates it
      persisted, and the metadata it returns for storing. */
  datatype SetupDone = SetupDone(source: PdfSource, writes: seq<CacheWrite>, metadata: Metadata)

  const SourceType: string := "pdf"

  /** A freshly constructed source: no chapters, no current chapter, no
      storage path. */
  function NewSource(id: string, title: string, cache: CacheState): PdfSource
  {
    PdfSource(id, title, cache, "", [], None)
  }

  // ----- content -----

  /** `"=== {title} (Pages {start}-{end}) ===\n\n{text}"`. */
  function Section(c: Chapter): string
  {
    "=== " + c.title + " (Pages " + IntToString(c.startPage) + "-" + IntToString(c.endPage) + ") ===\n\n" + c.text
  }

  function Sections(chs: seq<Chapter>): (ss: seq<string>)
    ensures |ss| == |chs| && forall k :: 0 <= k < |chs| ==> ss[k] == Section(chs[k])
  {
    seq(|chs|, k requires 0 <= k < |chs| => Section(chs[k]))
  }

  /** `get_full_content`: every chapter's section, joined by a blank line. */
  function FullContent(chs: seq<Chapter>): string
  {
    Join(Sections(chs), "\n\n")
  }

  /** The content is empty exactly when there are no chapters (a section is
      never empty). */
  lemma {:induction false} FullContentEmpty(chs: seq<Chapter>)
    ensures FullContent(chs) == "" <==> |chs| == 0
  {
    if |chs| > 0 {
      var ss := Sections(chs);
      assert |Section(chs[0])| > 0;
      assert |ss| == 1 ==> Join(ss, "\n\n") == ss[0];
      assert |ss| > 1 ==> Join(ss, "\n\n") == ss[0] + "\n\n" + Join(ss[1..], "\n\n");
    }
  }

  /** Adding a chapter adds its section after a blank line. */
  lemma {:induction false} FullContentAppend(chs: seq<Chapter>, c: Chapter)
    ensures FullContent(chs + [c]) == if |chs| == 0 then Section(c) else FullContent(chs) + "\n\n" + Section(c)
  {
    assert Sections(chs + [c]) == Sections(chs) + [Section(c)];
    if |chs| > 0 {
      JoinAppend(Sections(chs), [Section(c)], "\n\n");
    } else {
      assert Sections(chs + [c]) == [Section(c)];
    }
  }

  // ----- chapter lookup -----

  /** The position of the first chapter from `from` on whose id is `id`,
      or `|chs|` when there is none. */
  function FindIndex(chs: seq<Chapter>, id: string, from: nat): (r: nat)
    requires from <= |chs|
    ensures from <= r <= |chs|
    ensures r < |chs| ==> chs[r].id == id
    ensures forall j :: from <= j < r ==> chs[j].id != id
    decreases |chs| - from
  {
    if from == |chs| || chs[from].id == id then from else FindIndex(chs, id, from + 1)
  }

  /** `next((ch for ch in chapters if ch.id == id), None)`. */
  function FindChapter(chs: seq<Chapter>, id: string): (r: Option<Chapter>)
    ensures r.None? <==> forall k :: 0 <= k < |chs| ==> chs[k].id != id
    ensures r.Some? ==> exists k :: 0 <= k < |chs| && chs[k] == r.value && r.value.id == id &&
                                    forall j :: 0 <= j < k ==> chs[j].id != id
  {
    var k := FindIndex(chs, id, 0);
    if k < |chs| then Some(chs[k]) else None
  }

  /** `get_content_for_generation`, for the context's "chapter_id" entry
      (`None` when absent): the text of the first chapter with that id. */
  function ContentForGeneration(chs: seq<Chapter>, chapterId: Option<string>): (r: Result<string>)
    ensures !Truthy(chapterId) ==> r == Err(ValueError("chapter_id required in context"))
    ensures Truthy(chapterId) && (forall k :: 0 <= k < |chs| ==> chs[k].id != chapterId.value) ==>
              r == Err(ValueError("Chapter not found: " + chapterId.value))
    ensures r.Ok? <==> Truthy(chapterId) && exists k :: 0 <= k < |chs| && chs[k].id == chapterId.value
    ensures r.Ok? ==> exists k :: 0 <= k < |chs| && chs[k].id == chapterId.value && r.value == chs[k].text &&
                                  forall j :: 0 <= j < k ==> chs[j].id != chapterId.value
  {
    if !Truthy(chapterId) then Err(ValueError("chapter_id required in context"))
    else
      match FindChapter(chs, chapterId.value)
      case None => Err(ValueError("Chapter not found: " + chapterId.value))
      case Some(c) => Ok(c.text)
  }

  /** `get_current_context`: the current chapter's title, start page and id,
      or nothing when there is no current chapter or no chapter has its id. */
  function CurrentContext(src: PdfSource): (r: map<string, Json>)
    ensures r == map[] <==>
              !Truthy(src.currentChapterId) ||
              forall k :: 0 <= k < |src.chapters| ==> src.chapters[k].id != src.currentChapterId.value
    ensures r != map[] ==>
              && r.Keys == {"reference", "page", "chapter_id"}
              && r["chapter_id"] == JString(src.currentChapterId.value)
              && exists k :: 0 <= k < |src.chapters| && src.chapters[k].id == src.currentChapterId.value &&
                             r["reference"] == JString(src.chapters[k].title) &&
                             r["page"] == JInt(src.chapters[k].startPage) &&
                             forall j :: 0 <= j < k ==> src.chapters[j].id != src.currentChapterId.value
  {
    if !Truthy(src.currentChapterId) then map[]
    else
      match FindChapter(src.chapters, src.currentChapterId.value)
      case None => map[]
      case Some(c) =>
        var r := map["reference" := JString(c.title), "page" := JInt(c.startPage), "chapter_id" := JString(c.id)];
        assert "page" in r;
        r
  }

  // ----- labs and actions -----

  function SupportsPdf(cls: LabClass): bool
  {
    SourceType in cls.supportedSources
  }

  /** The types in `ts` whose lab class supports PDF sources, in order. */
  function PdfLabTypes(labs: Registry<LabClass>, ts: seq<string>): (r: seq<string>)
    requires forall i :: 0 <= i < |ts| ==> ts[i] in labs.entries
    ensures forall i :: 0 <= i < |r| ==> r[i] in labs.entries && SupportsPdf(labs.entries[r[i]])
  {
    if |ts| == 0 then []
    else if SupportsPdf(labs.entries[ts[0]]) then [ts[0]] + PdfLabTypes(labs, ts[1..])
    else PdfLabTypes(labs, ts[1..])
  }

  /** `a` is `b` with some elements left out. */
  ghost predicate IsSubsequence(a: seq<string>, b: seq<string>)
    decreases |b|
  {
    if |a| == 0 then true
    else if |b| == 0 then false
    else (a[0] == b[0] && IsSubsequence(a[1..], b[1..])) || IsSubsequence(a, b[1..])
  }

  /** The filter keeps exactly the supporting types, in their order. */
  lemma {:induction false} PdfLabTypesSpec(labs: Registry<LabClass>, ts: seq<string>)
    requires forall i :: 0 <= i < |ts| ==> ts[i] in labs.entries
    ensures forall t :: t in PdfLabTypes(labs, ts) <==> t in ts && SupportsPdf(labs.entries[t])
    ensures IsSubsequence(PdfLabTypes(labs, ts), ts)
  {
    if |ts| > 0 {
      PdfLabTypesSpec(labs, ts[1..]);
      var rest := PdfLabTypes(labs, ts[1..]);
      assert ts == [ts[0]] + ts[1..];
      if SupportsPdf(labs.entries[ts[0]]) {
        assert PdfLabTypes(labs, ts) == [ts[0]] + rest;
        assert ([ts[0]] + rest)[1..] == rest;
      }
    }
  }

  /** `get_available_lab_types`: the registered lab types that list "pdf"
      among their supported sources, in registration order. */
  function AvailableLabTypes(labs: Registry<LabClass>): (r: seq<string>)
    requires Valid(labs)
    ensures forall t :: t in r <==> t in labs.entries && SourceType in labs.entries[t].supportedSources
    ensures IsSubsequence(r, Types(labs))
  {
    PdfLabTypesSpec(labs, Types(labs));
    PdfLabTypes(labs, Types(labs))
  }

  /** The schema property `_enhance_action_config` adds. */
  const ChapterIdProperty: Json :=
    JObject(map["type" := JString("string"), "description" := JString("Chapter to generate from")])

  /** The schema an action without one gets. */
  const DefaultSchema: Json := JObject(map["type" := JString("object"), "properties" := JObject(map[])])

  /** A configuration schema (a dictionary) after enrichment: the
      "chapter_id" property added, then "chapter_id" required. */
  function EnhanceSchema(cs: map<string, Json>): map<string, Json>
  {
    RequireChapter(AddChapterProperty(cs))
  }

  /** "properties" created if absent and given a "chapter_id" entry if it is
      a dictionary. */
  function AddChapterProperty(cs: map<string, Json>): map<string, Json>
  {
    var withProps := if "properties" in cs then cs else cs["properties" := JObject(map[])];
    match withProps["properties"]
    case JObject(props) => withProps["properties" := JObject(props["chapter_id" := ChapterIdProperty])]
    case _ => withProps
  }

  /** "required" created if absent and extended by "chapter_id" if it is a
      list. */
  function RequireChapter(cs: map<string, Json>): map<string, Json>
  {
    var withRequired := if "required" in cs then cs else cs["required" := JArray([])];
    match withRequired["required"]
    case JArray(items) => withRequired["required" := JArray(items + [JString("chapter_id")])]
    case _ => withRequired
  }

  /** The schema an action carries, or the default one it is given. */
  function SchemaOf(action: map<string, Json>): Json
  {
    if "config_schema" in action then action["config_schema"] else DefaultSchema
  }

  /** `_enhance_action_config`. */
  function EnhanceActionConfig(action: map<string, Json>): (r: map<string, Json>)
    ensures r.Keys == action.Keys + {"config_schema"}
    ensures forall k :: k in action && k != "config_schema" ==> r[k] == action[k]
    ensures !SchemaOf(action).JObject? ==> r == action
    ensures SchemaOf(action).JObject? ==> r["config_schema"] == JObject(EnhanceSchema(SchemaOf(action).fields))
  {
    var withSchema := if "config_schema" in action then action else action["config_schema" := DefaultSchema];
    match withSchema["config_schema"]
    case JObject(cs) => withSchema["config_schema" := JObject(EnhanceSchema(cs))]
    case _ => withSchema
  }

  /** Enrichment adds the "chapter_id" property when the properties are a
      dictionary (keeping the others), appends exactly one "chapter_id" to
      the required list when it is a list, and leaves every other schema key
      alone. */
  lemma {:induction false} EnhanceSchemaSpec(cs: map<string, Json>)
    ensures "properties" in EnhanceSchema(cs) && "required" in EnhanceSchema(cs)
    ensures EnhanceSchema(cs).Keys == cs.Keys + {"properties", "required"}
    ensures forall k :: k in cs && k != "properties" && k != "required" ==> EnhanceSchema(cs)[k] == cs[k]
    ensures "properties" !in cs ==> EnhanceSchema(cs)["properties"] == JObject(map["chapter_id" := ChapterIdProperty])
    ensures "properties" in cs && cs["properties"].JObject? ==>
              EnhanceSchema(cs)["properties"] == JObject(cs["properties"].fields["chapter_id" := ChapterIdProperty])
    ensures "properties" in cs && !cs["properties"].JObject? ==> EnhanceSchema(cs)["properties"] == cs["properties"]
    ensures "required" !in cs ==> EnhanceSchema(cs)["required"] == JArray([JString("chapter_id")])
    ensures "required" in cs && cs["required"].JArray? ==>
              EnhanceSchema(cs)["required"] == JArray(cs["required"].items + [JString("chapter_id")])
    ensures "required" in cs && !cs["required"].JArray? ==> EnhanceSchema(cs)["required"] == cs["required"]
  {
    var withId := AddChapterProperty(cs);
    AddChapterPropertySpec(cs);
    RequireChapterSpec(withId);
    assert "required" in cs <==> "required" in withId;
    assert "required" in cs ==> withId["required"] == cs["required"];
  }

  /** Adding the property touches "properties" only. */
  lemma {:induction false} AddChapterPropertySpec(cs: map<string, Json>)
    ensures AddChapterProperty(cs).Keys == cs.Keys + {"properties"}
    ensures forall k :: k in cs && k != "properties" ==> AddChapterProperty(cs)[k] == cs[k]
    ensures "properties" !in cs ==> AddChapterProperty(cs)["properties"] == JObject(map["chapter_id" := ChapterIdProperty])
    ensures "properties" in cs && cs["properties"].JObject? ==>
              AddChapterProperty(cs)["properties"] == JObject(cs["properties"].fields["chapter_id" := ChapterIdProperty])
    ensures "properties" in cs && !cs["properties"].JObject? ==> AddChapterProperty(cs)["properties"] == cs["properties"]
  {
  }

  /** Requiring the chapter touches "required" only. */
  lemma {:induction false} RequireChapterSpec(cs: map<string, Json>)
    ensures RequireChapter(cs).Keys == cs.Keys + {"required"}
    ensures forall k :: k in cs && k != "required" ==> RequireChapter(cs)[k] == cs[k]
    ensures "required" !in cs ==> RequireChapter(cs)["required"] == JArray([JString("chapter_id")])
    ensures "required" in cs && cs["required"].JArray? ==>
              RequireChapter(cs)["required"] == JArray(cs["required"].items + [JString("chapter_id")])
    ensures "required" in cs && !cs["required"].JArray? ==> RequireChapter(cs)["required"] == cs["required"]
  {
  }

  /** Enrichment is not idempotent: enriching an action twice enriches its
      schema twice, and a second schema enrichment appends a second
      "chapter_id" to the required list while the properties stay as the
      first one left them. */
  lemma {:induction false} EnhanceTwice(action: map<string, Json>)
    requires SchemaOf(action).JObject?
    requires "required" !in SchemaOf(action).fields || SchemaOf(action).fields["required"].JArray?
    ensures EnhanceActionConfig(EnhanceActionConfig(action))["config_schema"] ==
            JObject(EnhanceSchema(EnhanceSchema(SchemaOf(action).fields)))
    ensures EnhanceActionConfig(EnhanceActionConfig(action)) != EnhanceActionConfig(action)
  {
    var cs := SchemaOf(action).fields;
    var once := EnhanceActionConfig(action);
    assert SchemaOf(once) == JObject(EnhanceSchema(cs));
    SchemaTwice(cs);
    assert EnhanceActionConfig(once)["config_schema"] != once["config_schema"];
  }

  /** A second schema enrichment appends a second "chapter_id" to the
      required list the first one made, and leaves the properties alone. */
  lemma {:induction false} SchemaTwice(cs: map<string, Json>)
    requires "required" !in cs || cs["required"].JArray?
    ensures "required" in EnhanceSchema(cs) && EnhanceSchema(cs)["required"].JArray?
    ensures EnhanceSchema(EnhanceSchema(cs))["required"] ==
            JArray(EnhanceSchema(cs)["required"].items + [JString("chapter_id")])
    ensures EnhanceSchema(EnhanceSchema(cs))["properties"] == EnhanceSchema(cs)["properties"]
    ensures EnhanceSchema(EnhanceSchema(cs)) != EnhanceSchema(cs)
  {
    var once := EnhanceSchema(cs);
    EnhanceSchemaSpec(cs);
    EnhanceSchemaSpec(once);
    assert |EnhanceSchema(once)["required"].items| == |once["required"].items| + 1;
  }

  /** `get_actions`: each PDF-capable lab's action metadata, enriched, in
      registration order. */
  function GetActions(labs: Registry<LabClass>): (r: seq<map<string, Json>>)
    requires Valid(labs)
    ensures |r| == |AvailableLabTypes(labs)|
    ensures forall k :: 0 <= k < |r| ==>
              r[k] == EnhanceActionConfig(labs.entries[AvailableLabTypes(labs)[k]].actionMetadata)
  {
    var ts := AvailableLabTypes(labs);
    seq(|ts|, k requires 0 <= k < |ts| => EnhanceActionConfig(labs.entries[ts[k]].actionMetadata))
  }

  // ----- chat and viewer -----

  function OptionalString(s: Option<string>): Json
  {
    if s.Some? then JString(s.value) else JNull
  }

  /** `get_chat_context`. */
  function ChatContext(src: PdfSource): (r: map<string, Json>)
    ensures r.Keys == {"id", "type", "title", "cache_id", "context", "total_chapters"}
    ensures r["id"] == JString(src.id) && r["type"] == JString(SourceType) && r["title"] == JString(src.title)
    ensures src.cache.cacheId.Some? ==> r["cache_id"] == JString(src.cache.cacheId.value)
    ensures src.cache.cacheId.None? ==> r["cache_id"] == JNull
    ensures r["context"] == JObject(CurrentContext(src))
    ensures r["total_chapters"] == JInt(|src.chapters|)
  {
    map["id" := JString(src.id), "type" := JString(SourceType), "title" := JString(src.title),
        "cache_id" := OptionalString(src.cache.cacheId), "context" := JObject(CurrentContext(src)),
        "total_chapters" := JInt(|src.chapters|)]
  }

  /** A chapter as the viewer sees it: everything but its text. */
  function ViewChapter(c: Chapter): Json
  {
    JObject(map["id" := JString(c.id), "title" := JString(c.title),
                "start_page" := JInt(c.startPage), "end_page" := JInt(c.endPage)])
  }

  /** The viewer tells two chapters apart exactly when they differ in
      something other than their text. */
  lemma {:induction false} ViewChapterDropsText(a: Chapter, b: Chapter)
    ensures ViewChapter(a) == ViewChapter(b) <==> a.(text := "") == b.(text := "")
  {
    if ViewChapter(a) == ViewChapter(b) {
      var m := ViewChapter(a).fields;
      assert m["id"] == JString(a.id) && m["id"] == JString(b.id);
      assert m["title"] == JString(a.title) && m["title"] == JString(b.title);
      assert m["start_page"] == JInt(a.startPage) && m["start_page"] == JInt(b.startPage);
      assert m["end_page"] == JInt(a.endPage) && m["end_page"] == JInt(b.endPage);
    }
  }

  /** The last chapter's end page, or 0 without chapters. */
  function TotalPages(chs: seq<Chapter>): int
  {
    if |chs| > 0 then chs[|chs| - 1].endPage else 0
  }

  /** `get_view_data`. */
  function ViewData(src: PdfSource): (r: map<string, Json>)
    ensures r.Keys == {"type", "title", "storage_url", "chapters", "current_chapter_id", "total_pages"}
    ensures r["type"] == JString(SourceType) && r["title"] == JString(src.title)
    ensures src.currentChapterId.Some? ==> r["current_chapter_id"] == JString(src.currentChapterId.value)
    ensures src.currentChapterId.None? ==> r["current_chapter_id"] == JNull
    ensures r["storage_url"] == JString(src.storagePath)
    ensures r["chapters"].JArray? && |r["chapters"].items| == |src.chapters|
    ensures forall k :: 0 <= k < |src.chapters| ==> r["chapters"].items[k] == ViewChapter(src.chapters[k])
    ensures r["total_pages"] == JInt(TotalPages(src.chapters))
  {
    map["type" := JString(SourceType), "title" := JString(src.title), "storage_url" := JString(src.storagePath),
        "chapters" := JArray(seq(|src.chapters|, k requires 0 <= k < |src.chapters| => ViewChapter(src.chapters[k]))),
        "current_chapter_id" := OptionalString(src.currentChapterId),
        "total_pages" := JInt(TotalPages(src.chapters))]
  }

  /** The view shows everything of a source except its id, its cache and
      its chapters' texts: two sources look the same to the viewer exactly
      when they agree on the rest. */
  lemma {:induction false} ViewDataDropsText(a: PdfSource, b: PdfSource)
    ensures ViewData(a) == ViewData(b) <==>
              && a.title == b.title && a.storagePath == b.storagePath
              && a.currentChapterId == b.currentChapterId
              && |a.chapters| == |b.chapters|
              && forall k :: 0 <= k < |a.chapters| ==> a.chapters[k].(text := "") == b.chapters[k].(text := "")
  {
    if SameView(a, b) {
      SameViewLooksSame(a, b);
    }
    if ViewData(a) == ViewData(b) {
      LooksSameSameView(a, b);
    }
  }

  /** Agreement on everything the viewer shows. */
  predicate SameView(a: PdfSource, b: PdfSource)
  {
    && a.title == b.title && a.storagePath == b.storagePath
    && a.currentChapterId == b.currentChapterId
    && |a.chapters| == |b.chapters|
    && forall k :: 0 <= k < |a.chapters| ==> a.chapters[k].(text := "") == b.chapters[k].(text := "")
  }

  lemma {:induction false} SameViewLooksSame(a: PdfSource, b: PdfSource)
    requires SameView(a, b)
    ensures ViewData(a) == ViewData(b)
  {
    var va, vb := ViewData(a), ViewData(b);
    forall k | 0 <= k < |a.chapters|
      ensures va["chapters"].items[k] == vb["chapters"].items[k]
    {
      ViewChapterDropsText(a.chapters[k], b.chapters[k]);
    }
    assert va["chapters"] == vb["chapters"];
  }

  lemma {:induction false} LooksSameSameView(a: PdfSource, b: PdfSource)
    requires ViewData(a) == ViewData(b)
    ensures SameView(a, b)
  {
    var va, vb := ViewData(a), ViewData(b);
    forall k | 0 <= k < |a.chapters|
      ensures a.chapters[k].(text := "") == b.chapters[k].(text := "")
    {
      assert va["chapters"].items[k] == vb["chapters"].items[k];
      ViewChapterDropsText(a.chapters[k], b.chapters[k]);
    }
  }

  // ----- setup and hydration -----

  /** A chapter as setup stores it: id, title and start page only. */
  function Store(c: Chapter): StoredChapter
  {
    StoredChapter(c.id, c.title, c.startPage, None)
  }

  function StoreAll(chs: seq<Chapter>): (r: seq<StoredChapter>)
    ensures |r| == |chs| && forall k :: 0 <= k < |chs| ==> r[k] == Store(chs[k])
  {
    seq(|chs|, k requires 0 <= k < |chs| => Store(chs[k]))
  }

  /** `setup`: extract the chapters (`opening` is the outcome of opening the
      file), upload the file when a storage service is present (`storage` is
      its outcome), get a cache for the full content, and make the first
      chapter current. Any exception propagates. */
  function Setup(src: PdfSource, opening: Result<Document>, storage: Option<Result<string>>, now: int,
                 p: Provider, service: Option<SourceService>): (r: Result<SetupDone>)
    ensures r.Ok? <==>
              && ExtractChapters(opening).Ok?
              && (storage.None? || storage.value.Ok?)
              && GetCacheId(src.cache, now, FullContent(ExtractChapters(opening).value), p, service).result.Ok?
    ensures ExtractChapters(opening).Err? ==> r == Err(ExtractChapters(opening).error)
    ensures ExtractChapters(opening).Ok? && storage.Some? && storage.value.Err? ==> r == Err(storage.value.error)
    ensures ExtractChapters(opening).Ok? && (storage.None? || storage.value.Ok?) &&
            GetCacheId(src.cache, now, FullContent(ExtractChapters(opening).value), p, service).result.Err? ==>
              r == Err(GetCacheId(src.cache, now, FullContent(ExtractChapters(opening).value), p, service).result.error)
    ensures r.Ok? ==>
              && r.value.source.chapters == ExtractChapters(opening).value
              && r.value.source.storagePath == (if storage.Some? then storage.value.value else src.storagePath)
              && r.value.source.cache == GetCacheId(src.cache, now, FullContent(r.value.source.chapters), p, service).state
              && r.value.writes == GetCacheId(src.cache, now, FullContent(r.value.source.chapters), p, service).writes
              && r.value.source.currentChapterId == Some(r.value.source.chapters[0].id)
              && r.value.metadata == Metadata(Some(StoreAll(r.value.source.chapters)))
              && r.value.source.id == src.id && r.value.source.title == src.title
  {
    var chapters :- ExtractChapters(opening);
    ChapterExtraction.ExtractionChained(opening);
    var path :- if storage.Some? then storage.value else Ok(src.storagePath);
    var step := GetCacheId(src.cache, now, FullContent(chapters), p, service);
    if step.result.Err? then Err(step.result.error)
    else
      var current := if |chapters| > 0 then Some(chapters[0].id) else src.currentChapterId;
      Ok(SetupDone(src.(chapters := chapters, storagePath := path, cache := step.state, currentChapterId := current),
                   step.writes, Metadata(Some(StoreAll(chapters)))))
  }

  /** A stored chapter read back: `end_page` defaults to `start_page`, and
      the text is not stored. */
  function Hydrate(sc: StoredChapter): Chapter
  {
    Chapter(sc.id, sc.title, sc.startPage, if sc.endPage.Some? then sc.endPage.value else sc.startPage, "")
  }

  function StoredChapters(meta: Option<Metadata>): seq<StoredChapter>
  {
    if meta.Some? && meta.value.chapters.Some? then meta.value.chapters.value else []
  }

  /** `setup_from_db`: the source rebuilt from its row, without services. */
  function SetupFromDb(rec: SourceRecord): (src: PdfSource)
    ensures src.id == rec.id && src.title == rec.title
    ensures src.cache == CacheState(rec.cacheId, rec.cacheExpiresAt)
    ensures src.storagePath == if rec.storagePath.Some? then rec.storagePath.value else ""
    ensures |src.chapters| == |StoredChapters(rec.metaData)|
    ensures forall k :: 0 <= k < |src.chapters| ==>
              && src.chapters[k].id == StoredChapters(rec.metaData)[k].id
              && src.chapters[k].title == StoredChapters(rec.metaData)[k].title
              && src.chapters[k].startPage == StoredChapters(rec.metaData)[k].startPage
              && src.chapters[k].endPage == (if StoredChapters(rec.metaData)[k].endPage.Some?
                                             then StoredChapters(rec.metaData)[k].endPage.value
                                             else src.chapters[k].startPage)
              && src.chapters[k].text == ""
    ensures src.currentChapterId == if |src.chapters| > 0 then Some(src.chapters[0].id) else None
  {
    var stored := StoredChapters(rec.metaData);
    var chapters := seq(|stored|, k requires 0 <= k < |stored| => Hydrate(stored[k]));
    PdfSource(rec.id, rec.title, CacheState(rec.cacheId, rec.cacheExpiresAt),
              if rec.storagePath.Some? then rec.storagePath.value else "",
              chapters, if |chapters| > 0 then Some(chapters[0].id) else None)
  }

  /** Storing and reading back keeps a chapter's id, title and start page,
      loses its text, and sets its end page to its start page; a second round
      stores the same thing again. */
  lemma {:induction false} StoreRoundTrip(c: Chapter)
    ensures Hydrate(Store(c)) == c.(endPage := c.startPage, text := "")
    ensures Store(Hydrate(Store(c))) == Store(c)
  {
  }

  /** A source rebuilt from the metadata its setup returned has the same
      chapters in the same order, each ending on its start page and without
      text, and the same current chapter. */
  lemma {:induction false} ReloadAfterSetup(done: SetupDone, rec: SourceRecord)
    requires rec.metaData == Some(done.metadata)
    requires done.metadata == Metadata(Some(StoreAll(done.source.chapters)))
    requires |done.source.chapters| > 0 && done.source.currentChapterId == Some(done.source.chapters[0].id)
    ensures |SetupFromDb(rec).chapters| == |done.source.chapters|
    ensures forall k :: 0 <= k < |done.source.chapters| ==>
              SetupFromDb(rec).chapters[k] ==
                done.source.chapters[k].(endPage := done.source.chapters[k].startPage, text := "")
    ensures SetupFromDb(rec).currentChapterId == done.source.currentChapterId
  {
  }
}

=== FILE: registry.dfy ===
/** The two type registries: one from source-type identifiers to source
    classes, one from lab-type identifiers to lab classes. A registry is a
    Python dictionary, so it remembers the order in which keys were first
    inserted; re-registering a key replaces its class in place. */
module Registry {
  import opened Values
  import opened Strings
  import opened Exceptions

  /** A source class, identified by its class name and its `source_type`. */
  datatype SourceClass = SourceClass(name: string, sourceType: string)

  /** The PDF source class, registered under `"pdf"`. */
  const PdfSourceClass: SourceClass := SourceClass("PDFSource", "pdf")

  /** A lab class: its `lab_type`, the source types it supports (the base
      class's default is the empty list) and the action metadata it
      advertises. */
  datatype LabClass = LabClass(name: string, labType: string, supportedSources: seq<string>,
                               actionMetadata: map<string, Json>)

  /** A dictionary from type identifiers to classes; `order` lists the keys
      in first-insertion order. */
  datatype Registry<C> = Registry(order: seq<string>, entries: map<string, C>)

  ghost predicate Valid<C>(r: Registry<C>)
  {
    && (forall i, j :: 0 <= i < j < |r.order| ==> r.order[i] != r.order[j])
    && (forall k :: k in r.entries <==> k in r.order)
  }

  function Empty<C>(): (r: Registry<C>)
    ensures Valid(r)
  {
    Registry([], map[])
  }

  /** `REGISTRY[key] = c`. */
  function Register<C>(r: Registry<C>, key: string, c: C): (r': Registry<C>)
    requires Valid(r)
    ensures Valid(r')
    ensures r'.entries.Keys == r.entries.Keys + {key}
  {
    if key in r.entries then Registry(r.order, r.entries[key := c])
    else Registry(r.order + [key], r.entries[key := c])
  }

  /** `list(REGISTRY.keys())`. */
  function Types<C>(r: Registry<C>): (ts: seq<string>)
    requires Valid(r)
    ensures forall k :: k in ts <==> k in r.entries
    ensures forall i, j :: 0 <= i < j < |ts| ==> ts[i] != ts[j]
  {
    r.order
  }

  /** Looking a type up: the class, or a `KeyError` naming the unknown type
      and listing the registered ones. `kind` is "source" or "lab". */
  function Lookup<C>(r: Registry<C>, kind: string, t: string): (res: Result<C>)
    requires Valid(r)
    ensures res.Ok? <==> t in r.entries
    ensures res.Ok? ==> res.value == r.entries[t]
    ensures res.Err? ==> res.error == KeyError("Unknown " + kind + " type: " + t + ". Available: " + ListRepr(Types(r)))
  {
    if t !in r.entries then
      Err(KeyError("Unknown " + kind + " type: " + t + ". Available: " + ListRepr(Types(r))))
    else Ok(r.entries[t])
  }

  /** Looking up the class and calling it: fails exactly when the lookup does. */
  function Instantiate<C, I>(r: Registry<C>, kind: string, t: string, construct: C -> I): (res: Result<I>)
    requires Valid(r)
    ensures res.Err? <==> t !in r.entries
    ensures res.Err? ==> res.error == Lookup(r, kind, t).error
    ensures res.Ok? ==> res.value == construct(r.entries[t])
  {
    var c :- Lookup(r, kind, t);
    Ok(construct(c))
  }

  /** After registering `c` under `key`, `key` looks up to `c`, and every
      other key looks up exactly as before. */
  lemma {:induction false} RegisterThenLookup<C>(r: Registry<C>, kind: string, key: string, c: C, other: string)
    requires Valid(r)
    ensures Lookup(Register(r, key, c), kind, key) == Ok(c)
    ensures other != key ==> (Lookup(Register(r, key, c), kind, other).Ok? <==> Lookup(r, kind, other).Ok?)
    ensures other != key && Lookup(r, kind, other).Ok? ==>
              Lookup(Register(r, key, c), kind, other) == Lookup(r, kind, other)
  {
  }

  /** The registry that results from registering `regs` in order, starting empty. */
  function RegisterAll<C>(regs: seq<(string, C)>): (r: Registry<C>)
    ensures Valid(r)
  {
    if |regs| == 0 then Empty()
    else Register(RegisterAll(regs[..|regs| - 1]), regs[|regs| - 1].0, regs[|regs| - 1].1)
  }

  /** The keys of a series of registrations, in order, repeats included. */
  function KeysOf<C>(regs: seq<(string, C)>): (ks: seq<string>)
    ensures |ks| == |regs|
    ensures forall j :: 0 <= j < |regs| ==> ks[j] == regs[j].0
  {
    seq(|regs|, j requires 0 <= j < |regs| => regs[j].0)
  }

  /** The index of the first registration of `k`. */
  function FirstIndex<C>(regs: seq<(string, C)>, k: string): (i: nat)
    requires k in KeysOf(regs)
    ensures i < |regs| && regs[i].0 == k
    ensures forall j :: 0 <= j < i ==> regs[j].0 != k
  {
    if regs[0].0 == k then 0
    else
      assert k in KeysOf(regs[1..]) by {
        var j :| 0 <= j < |regs| && KeysOf(regs)[j] == k;
        assert KeysOf(regs[1..])[j - 1] == k;
      }
      1 + FirstIndex(regs[1..], k)
  }

  /** The index of the last registration of `k`. */
  function LastIndex<C>(regs: seq<(string, C)>, k: string): (i: nat)
    requires k in KeysOf(regs)
    ensures i < |regs| && regs[i].0 == k
    ensures forall j :: i < j < |regs| ==> regs[j].0 != k
  {
    var n := |regs| - 1;
    if regs[n].0 == k then n
    else
      assert k in KeysOf(regs[..n]) by {
        var j :| 0 <= j < |regs| && KeysOf(regs)[j] == k;
        assert KeysOf(regs[..n])[j] == k;
      }
      LastIndex(regs[..n], k)
  }

  /** The listed types are exactly the registered keys. */
  lemma {:induction false} RegisteredTypes<C>(regs: seq<(string, C)>)
    ensures forall k :: k in Types(RegisterAll(regs)) <==> k in KeysOf(regs)
  {
    if |regs| > 0 {
      var n := |regs| - 1;
      RegisteredTypes(regs[..n]);
      assert KeysOf(regs) == KeysOf(regs[..n]) + [regs[n].0];
    }
  }

  /** Each registered key maps to the class of its last registration. */
  lemma {:induction false} LastRegistrationWins<C>(regs: seq<(string, C)>)
    ensures forall k :: k in RegisterAll(regs).entries ==>
              k in KeysOf(regs) && RegisterAll(regs).entries[k] == regs[LastIndex(regs, k)].1
  {
    RegisteredTypes(regs);
    if |regs| > 0 {
      var n := |regs| - 1;
      var prev := RegisterAll(regs[..n]);
      LastRegistrationWins(regs[..n]);
      assert RegisterAll(regs) == Register(prev, regs[n].0, regs[n].1);
      forall k | k in RegisterAll(regs).entries
        ensures RegisterAll(regs).entries[k] == regs[LastIndex(regs, k)].1
      {
        if k != regs[n].0 {
          assert k in prev.entries;
          var i := LastIndex(regs[..n], k);
          assert LastIndex(regs, k) == i;
          assert regs[..n][i] == regs[i];
        }
      }
    }
  }

  /** `ts` lists registered keys ordered by their first registration. */
  ghost predicate OrderedByFirst<C>(regs: seq<(string, C)>, ts: seq<string>)
  {
    && (forall i :: 0 <= i < |ts| ==> ts[i] in KeysOf(regs))
    && (forall i, j :: 0 <= i < j < |ts| ==> FirstIndex(regs, ts[i]) < FirstIndex(regs, ts[j]))
  }

  /** Listing the types after a series of registrations gives every
      registered key exactly once, ordered by its first registration. */
  lemma {:induction false} RegistrationOrder<C>(regs: seq<(string, C)>)
    ensures forall k :: k in Types(RegisterAll(regs)) <==> k in KeysOf(regs)
    ensures OrderedByFirst(regs, Types(RegisterAll(regs)))
  {
    RegisteredTypes(regs);
    if |regs| > 0 {
      var n := |regs| - 1;
      var prev := RegisterAll(regs[..n]);
      RegistrationOrder(regs[..n]);
      OrderStep(regs, Types(prev));
      assert RegisterAll(regs) == Register(prev, regs[n].0, regs[n].1);
    }
  }

  /** One registration step keeps the listed types ordered by first registration. */
  lemma {:induction false} OrderStep<C>(regs: seq<(string, C)>, before: seq<string>)
    requires |regs| > 0
    requires forall k :: k in before <==> k in KeysOf(regs[..|regs| - 1])
    requires OrderedByFirst(regs[..|regs| - 1], before)
    ensures OrderedByFirst(regs, if regs[|regs| - 1].0 in before then before else before + [regs[|regs| - 1].0])
  {
    var n := |regs| - 1;
    var prefix := regs[..n];
    var key := regs[n].0;
    assert KeysOf(regs)[n] == key;
    forall i | 0 <= i < |before|
      ensures before[i] in KeysOf(regs) && FirstIndex(regs, before[i]) == FirstIndex(prefix, before[i])
    {
      FirstIndexPrefix(regs, before[i]);
    }
    if key !in before {
      forall j | 0 <= j < n
        ensures regs[j].0 != key
      {
        assert KeysOf(prefix)[j] == regs[j].0;
      }
      assert FirstIndex(regs, key) == n;
      var after := before + [key];
      forall i | 0 <= i < |after|
        ensures after[i] in KeysOf(regs)
      {
        if i < |before| {
          assert after[i] == before[i];
        }
      }
      forall i, j | 0 <= i < j < |after|
        ensures FirstIndex(regs, after[i]) < FirstIndex(regs, after[j])
      {
        assert after[i] == before[i];
        if j < |before| {
          assert after[j] == before[j];
        }
      }
    }
  }

  /** Extending the registrations does not move the first registration of a
      key already registered. */
  lemma {:induction false} FirstIndexPrefix<C>(regs: seq<(string, C)>, k: string)
    requires |regs| > 0 && k in KeysOf(regs[..|regs| - 1])
    ensures k in KeysOf(regs)
    ensures FirstIndex(regs, k) == FirstIndex(regs[..|regs| - 1], k)
  {
    var prefix := regs[..|regs| - 1];
    var j :| 0 <= j < |prefix| && KeysOf(prefix)[j] == k;
    assert KeysOf(regs)[j] == k;
    var a := FirstIndex(regs, k);
    var b := FirstIndex(prefix, k);
    assert prefix[b] == regs[b];
    assert a < |prefix| && prefix[a] == regs[a];
  }

  /** `@register_source`: maps `cls.source_type` to `cls` and returns `cls`. */
  function RegisterSource(r: Registry<SourceClass>, cls: SourceClass): (res: (Registry<SourceClass>, SourceClass))
    requires Valid(r)
    ensures Valid(res.0) && res.1 == cls
    ensures Lookup(res.0, "source", cls.sourceType) == Ok(cls)
    ensures forall t :: t != cls.sourceType && t in r.entries ==> t in res.0.entries && res.0.entries[t] == r.entries[t]
    ensures Types(res.0) == if cls.sourceType in r.entries then Types(r) else Types(r) + [cls.sourceType]
  {
    (Register(r, cls.sourceType, cls), cls)
  }

  /** `@register_lab`: maps `cls.lab_type` to `cls` and returns `cls`. */
  function RegisterLab(r: Registry<LabClass>, cls: LabClass): (res: (Registry<LabClass>, LabClass))
    requires Valid(r)
    ensures Valid(res.0) && res.1 == cls
    ensures Lookup(res.0, "lab", cls.labType) == Ok(cls)
    ensures forall t :: t != cls.labType && t in r.entries ==> t in res.0.entries && res.0.entries[t] == r.entries[t]
    ensures Types(res.0) == if cls.labType in r.entries then Types(r) else Types(r) + [cls.labType]
  {
    (Register(r, cls.labType, cls), cls)
  }

  /** `get_source_class`. */
  function GetSourceClass(r: Registry<SourceClass>, t: string): (res: Result<SourceClass>)
    requires Valid(r)
    ensures res.Err? <==> t !in r.entries
    ensures res.Ok? ==> res.value == r.entries[t]
    ensures res.Err? ==> res.error.Raised? && res.error.cls == PyKeyError
  {
    Lookup(r, "source", t)
  }

  /** `get_lab_class`. */
  function GetLabClass(r: Registry<LabClass>, t: string): (res: Result<LabClass>)
    requires Valid(r)
    ensures res.Err? <==> t !in r.entries
    ensures res.Ok? ==> res.value == r.entries[t]
    ensures res.Err? ==> res.error.Raised? && res.error.cls == PyKeyError
  {
    Lookup(r, "lab", t)
  }
}

=== FILE: scan.dfy ===
/** Scanning a sequence for the positions whose element passes a test, as
    the parser does twice: for the pages holding a chapter heading and for
    the top-level entries of a table of contents. */
module Scan {

  /** Position `q` of `s` holds an element that passes `keep`. */
  predicate Kept<T>(s: seq<T>, keep: T -> bool, q: int)
  {
    0 <= q < |s| && keep(s[q])
  }

  /** The first kept position at or after `from`, or `|s|` when there is none. */
  function NextKept<T>(s: seq<T>, keep: T -> bool, from: nat): (r: nat)
    requires from <= |s|
    ensures from <= r <= |s|
    ensures r < |s| ==> Kept(s, keep, r)
    ensures forall q :: from <= q < r ==> !Kept(s, keep, q)
    decreases |s| - from
  {
    if from == |s| || keep(s[from]) then from
    else NextKept(s, keep, from + 1)
  }

  /** The kept positions from `p` on, in order. */
  function KeptFrom<T>(s: seq<T>, keep: T -> bool, p: nat): (r: seq<nat>)
    requires p <= |s|
    ensures forall k :: 0 <= k < |r| ==> p <= r[k] && Kept(s, keep, r[k])
    decreases |s| - p
  {
    if p == |s| then []
    else if keep(s[p]) then [p] + KeptFrom(s, keep, p + 1)
    else KeptFrom(s, keep, p + 1)
  }

  ghost predicate Increasing(r: seq<nat>)
  {
    forall i, j :: 0 <= i < j < |r| ==> r[i] < r[j]
  }

  /** The kept positions are listed in increasing order. */
  lemma {:induction false} KeptFromIncreasing<T>(s: seq<T>, keep: T -> bool, p: nat)
    requires p <= |s|
    ensures Increasing(KeptFrom(s, keep, p))
    decreases |s| - p
  {
    if p < |s| {
      KeptFromIncreasing(s, keep, p + 1);
      var r := KeptFrom(s, keep, p);
      var rest := KeptFrom(s, keep, p + 1);
      if keep(s[p]) {
        assert r == [p] + rest;
        forall i, j | 0 <= i < j < |r|
          ensures r[i] < r[j]
        {
          assert r[j] == rest[j - 1];
          if i > 0 {
            assert r[i] == rest[i - 1];
          } else {
            assert rest[j - 1] >= p + 1;
          }
        }
      } else {
        assert r == rest;
      }
    }
  }

  /** Every kept position from `p` on is listed. */
  lemma {:induction false} KeptFromComplete<T>(s: seq<T>, keep: T -> bool, p: nat)
    requires p <= |s|
    ensures forall q {:trigger Kept(s, keep, q)} :: p <= q && Kept(s, keep, q) ==> q in KeptFrom(s, keep, p)
    decreases |s| - p
  {
    if p < |s| {
      KeptFromComplete(s, keep, p + 1);
      var rest := KeptFrom(s, keep, p + 1);
      forall q | p <= q && Kept(s, keep, q)
        ensures q in KeptFrom(s, keep, p)
      {
        if q > p {
          assert q in rest;
          assert keep(s[p]) ==> KeptFrom(s, keep, p) == [p] + rest;
        }
      }
    }
  }

  /** The first listed position is the first kept one; the list is empty
      exactly when nothing from `p` on is kept. */
  lemma {:induction false} KeptFromFirst<T>(s: seq<T>, keep: T -> bool, p: nat)
    requires p <= |s|
    ensures |KeptFrom(s, keep, p)| == 0 <==> NextKept(s, keep, p) == |s|
    ensures |KeptFrom(s, keep, p)| > 0 ==> KeptFrom(s, keep, p)[0] == NextKept(s, keep, p)
  {
    var r := KeptFrom(s, keep, p);
    KeptFromIncreasing(s, keep, p);
    KeptFromComplete(s, keep, p);
    var first := NextKept(s, keep, p);
    if first < |s| {
      assert Kept(s, keep, first);
      assert first in r;
    }
    if |r| > 0 {
      assert Kept(s, keep, r[0]);
      assert first <= r[0];
      var i :| 0 <= i < |r| && r[i] == first;
      assert i == 0 || r[0] < r[i];
    }
  }

  /** After the `k`-th listed position, the next kept one is the next listed
      position, or there is none when `k` is the last. */
  lemma {:induction false} KeptFromSuccessor<T>(s: seq<T>, keep: T -> bool, p: nat, k: nat)
    requires p <= |s| && k < |KeptFrom(s, keep, p)|
    ensures NextKept(s, keep, KeptFrom(s, keep, p)[k] + 1) ==
            if k + 1 < |KeptFrom(s, keep, p)| then KeptFrom(s, keep, p)[k + 1] else |s|
  {
    var r := KeptFrom(s, keep, p);
    assert Kept(s, keep, r[k]);
    KeptFromIncreasing(s, keep, p);
    KeptFromComplete(s, keep, p);
    var x := NextKept(s, keep, r[k] + 1);
    if k + 1 < |r| {
      assert Kept(s, keep, r[k + 1]);
      assert r[k] < r[k + 1];
      assert x <= r[k + 1];
    }
    if x < |s| {
      assert Kept(s, keep, x);
      assert x in r;
      var i :| 0 <= i < |r| && r[i] == x;
      assert r[k] < r[i];
      assert k < i;
      assert k + 1 < |r|;
    }
  }

  /** The listed positions are the successive answers of `NextKept`: the
      first is the first kept position, each next one the next kept position
      after it, and none follows the last. */
  lemma {:induction false} KeptFromNext<T>(s: seq<T>, keep: T -> bool, p: nat)
    requires p <= |s|
    ensures |KeptFrom(s, keep, p)| == 0 <==> NextKept(s, keep, p) == |s|
    ensures |KeptFrom(s, keep, p)| > 0 ==> KeptFrom(s, keep, p)[0] == NextKept(s, keep, p)
    ensures forall i, j :: 0 <= i && j == i + 1 < |KeptFrom(s, keep, p)| ==>
              NextKept(s, keep, KeptFrom(s, keep, p)[i] + 1) == KeptFrom(s, keep, p)[j]
    ensures |KeptFrom(s, keep, p)| > 0 ==>
              NextKept(s, keep, KeptFrom(s, keep, p)[|KeptFrom(s, keep, p)| - 1] + 1) == |s|
  {
    var r := KeptFrom(s, keep, p);
    KeptFromFirst(s, keep, p);
    forall i, j | 0 <= i && j == i + 1 < |r|
      ensures NextKept(s, keep, r[i] + 1) == r[j]
    {
      KeptFromSuccessor(s, keep, p, i);
    }
    if |r| > 0 {
      KeptFromSuccessor(s, keep, p, |r| - 1);
    }
  }

  /** Nothing is listed when nothing from `p` on is kept. */
  lemma {:induction false} KeptFromNone<T>(s: seq<T>, keep: T -> bool, p: nat)
    requires p <= |s| && forall q :: p <= q < |s| ==> !keep(s[q])
    ensures KeptFrom(s, keep, p) == []
    decreases |s| - p
  {
    if p < |s| {
      KeptFromNone(s, keep, p + 1);
    }
  }
}

=== FILE: scenarios.dfy ===
/** Concrete documents from the repository's integration tests, run through
    the whole extraction. */
module Scenarios {
  import opened Values
  import Strings
  import opened Exceptions
  import opened Scan
  import ChapterPattern
  import opened PdfParser

  /** Three pages with a three-entry, all level-1 table of contents. */
  const TocFixture: seq<TocEntry> :=
    [TocEntry(1, "Introduction", 1), TocEntry(1, "Main Content", 2), TocEntry(1, "Conclusion", 3)]

  /** The table of contents gives one single-page chapter per entry, titled
      from the table. */
  lemma {:induction false} TocDocument(pages: seq<string>)
    requires |pages| == 3
    ensures ExtractChapters(Ok(Document(pages, TocFixture, false))) ==
              Ok([Chapter("ch_1", "Introduction", 0, 0, pages[0]),
                  Chapter("ch_2", "Main Content", 1, 1, pages[1]),
                  Chapter("ch_3", "Conclusion", 2, 2, pages[2])])
  {
    var doc := Document(pages, TocFixture, false);
    var toc := TocFixture;
    assert ChapterId(1) == "ch_1" && ChapterId(2) == "ch_2" && ChapterId(3) == "ch_3";
    assert TocEndPage(toc, 0, 3) == 0 && TocEndPage(toc, 1, 3) == 1 && TocEndPage(toc, 2, 3) == 2;
    TextRangeSpec(pages, 0, 0);
    TextRangeSpec(pages, 1, 1);
    TextRangeSpec(pages, 2, 2);
    assert pages[0..1] == [pages[0]] && pages[1..2] == [pages[1]] && pages[2..3] == [pages[2]];
    var c0 := Chapter("ch_1", "Introduction", 0, 0, pages[0]);
    var c1 := Chapter("ch_2", "Main Content", 1, 1, pages[1]);
    var c2 := Chapter("ch_3", "Conclusion", 2, 2, pages[2]);
    assert TocChapter(pages, toc, 2) == Ok(c2);
    assert TocChapter(pages, toc, 1) == Ok(c1);
    assert TocChapter(pages, toc, 0) == Ok(c0);
    assert TocChaptersFrom(pages, toc, 3) == Ok([]);
    assert IsTopLevel(toc[0]) && IsTopLevel(toc[1]) && IsTopLevel(toc[2]);
    assert [c2] + [] == [c2] && [c1] + [c2] == [c1, c2] && [c0] + [c1, c2] == [c0, c1, c2];
    assert TocChaptersFrom(pages, toc, 2) == Ok([c2]);
    assert TocChaptersFrom(pages, toc, 1) == Ok([c1, c2]);
    assert TocChaptersFrom(pages, toc, 0) == Ok([c0, c1, c2]);
  }

  /** A page whose first line is the heading "Chapter N", for a single
      digit N. */
  function HeadingPage(digit: char, rest: string): string
  {
    "Chapter " + [digit] + "\n" + rest
  }

  /** A search from inside a single line finds nothing: no later position
      starts a line. */
  lemma {:induction false} NoLaterLineStart(s: string, i: nat)
    requires 0 < i <= |s| && forall q :: i - 1 <= q < |s| ==> s[q] != '\n'
    ensures ChapterPattern.SearchFrom(s, i).None?
    decreases |s| - i
  {
    if i < |s| {
      NoLaterLineStart(s, i + 1);
    }
  }

  /** The heading opening a page is what the search returns. */
  lemma {:induction false} LeadingHeading(digit: char, rest: string)
    requires Strings.IsDigit(digit)
    ensures ChapterPattern.Search(HeadingPage(digit, rest)) == Some("Chapter " + [digit])
  {
    var s := HeadingPage(digit, rest);
    assert s[0..7] == "Chapter";
    assert s[7] == ' ' && s[8] == digit && s[9] == '\n';
    assert ChapterPattern.SpacesEnd(s, 8) == 8;
    assert ChapterPattern.DigitsEnd(s, 9) == 9;
    assert s[0..9] == "Chapter " + [digit];
  }

  /** A page of one line that does not open with a keyword holds no heading. */
  lemma {:induction false} PlainLine(s: string)
    requires |s| >= 7 && s[0..7] !in ChapterPattern.Keywords
    requires forall q :: 0 <= q < |s| ==> s[q] != '\n'
    ensures ChapterPattern.Search(s).None?
  {
    NoLaterLineStart(s, 1);
  }

  /** The three pages of the pattern document, their headings, and where
      the heading pages sit. */
  lemma {:induction false} PatternHeadings(first: string, middle: string, last: string)
    requires |middle| >= 7 && middle[0..7] !in ChapterPattern.Keywords
    requires forall q :: 0 <= q < |middle| ==> middle[q] != '\n'
    ensures PageHeadings([HeadingPage('1', first), middle, HeadingPage('2', last)]) ==
              [Some("Chapter 1"), None, Some("Chapter 2")]
  {
    LeadingHeading('1', first);
    LeadingHeading('2', last);
    PlainLine(middle);
    assert "Chapter " + ['1'] == "Chapter 1" && "Chapter " + ['2'] == "Chapter 2";
  }

  /** Headings on pages 0 and 2 of three: the heading pages and where each
      chapter's scan for the next heading stops. */
  lemma {:induction false} HeadingsOfThree(t1: string, t2: string)
    ensures HeadingPages([Some(t1), None, Some(t2)]) == [0, 2]
    ensures NextKept([Some(t1), None, Some(t2)], IsHeading, 1) == 2
    ensures NextKept([Some(t1), None, Some(t2)], IsHeading, 3) == 3
  {
    var heads := [Some(t1), None, Some(t2)];
    assert KeptFrom(heads, IsHeading, 2) == [2];
    assert KeptFrom(heads, IsHeading, 1) == [2];
  }

  /** With headings on pages 0 and 2 of three, the pattern chapters run over
      pages 0-1 and 2-2. */
  lemma {:induction false} PatternChaptersOfThree(pages: seq<string>, t1: string, t2: string)
    requires |pages| == 3
    ensures PatternChapters(pages, [Some(t1), None, Some(t2)]) ==
              [Chapter("ch_1", t1, 0, 1, pages[0] + "\n\n" + pages[1]),
               Chapter("ch_2", t2, 2, 2, pages[2])]
  {
    var heads := [Some(t1), None, Some(t2)];
    HeadingsOfThree(t1, t2);
    TextRangeSpec(pages, 0, 1);
    TextRangeSpec(pages, 2, 2);
    assert pages[0..2] == [pages[0], pages[1]] && pages[2..3] == [pages[2]];
    assert ChapterId(1) == "ch_1" && ChapterId(2) == "ch_2";
    var r := PatternChapters(pages, heads);
    assert r[0] == PatternChapter(pages, heads, 0, 0, t1);
    assert r[1] == PatternChapter(pages, heads, 2, 1, t2);
    assert Strings.Join([pages[0], pages[1]], PageSeparator) == pages[0] + "\n\n" + pages[1];
  }

  /** Two heading pages around a plain one: the pattern strategy yields two
      chapters titled with the matched headings, and the plain page joins
      the first. */
  lemma {:induction false} PatternDocument(first: string, middle: string, last: string)
    requires |middle| >= 7 && middle[0..7] !in ChapterPattern.Keywords
    requires forall q :: 0 <= q < |middle| ==> middle[q] != '\n'
    ensures ExtractChapters(Ok(Document([HeadingPage('1', first), middle, HeadingPage('2', last)], [], false))) ==
              Ok([Chapter("ch_1", "Chapter 1", 0, 1, HeadingPage('1', first) + "\n\n" + middle),
                  Chapter("ch_2", "Chapter 2", 2, 2, HeadingPage('2', last))])
  {
    var pages := [HeadingPage('1', first), middle, HeadingPage('2', last)];
    var doc := Document(pages, [], false);
    PatternHeadings(first, middle, last);
    PatternChaptersOfThree(pages, "Chapter 1", "Chapter 2");
    assert FromPatterns(doc) ==
             [Chapter("ch_1", "Chapter 1", 0, 1, pages[0] + "\n\n" + pages[1]),
              Chapter("ch_2", "Chapter 2", 2, 2, pages[2])];
  }
}

=== FILE: segmentation.dfy ===
/** Properties of chapter segmentation: each strategy's chapters are
    chained (each ends on the page before the next one starts, the last ends
    on the document's last page), carry distinct identifiers, and, for the
    pattern and page-range strategies, partition the pages they cover and
    hold exactly those pages' text. */
module PdfSegmentation {
  import opened Values
  import opened Strings
  import opened Exceptions
  import ChapterPattern
  import opened PdfParser
  import opened Scan

  /** Each chapter ends on the page before the next one starts, and the last
      ends on the document's last page. */
  ghost predicate Chained(chs: seq<Chapter>, pageCount: int)
  {
    && (forall i, j :: 0 <= i && j == i + 1 < |chs| ==> chs[i].endPage == chs[j].startPage - 1)
    && (|chs| > 0 ==> chs[|chs| - 1].endPage == pageCount - 1)
  }

  /** Start pages strictly increase. */
  ghost predicate Ascending(chs: seq<Chapter>)
  {
    forall i, j :: 0 <= i < j < |chs| ==> chs[i].startPage < chs[j].startPage
  }

  /** Every chapter is a non-empty range of pages inside the document and its
      text is the text of those pages. */
  ghost predicate HoldsPages(pages: seq<string>, chs: seq<Chapter>)
  {
    forall k :: 0 <= k < |chs| ==>
      && 0 <= chs[k].startPage <= chs[k].endPage < |pages|
      && chs[k].text == PageText(pages, chs[k].startPage, chs[k].endPage)
  }

  ghost predicate Covers(c: Chapter, page: int)
  {
    c.startPage <= page <= c.endPage
  }

  /** Some chapter covers `page`. */
  ghost predicate CoveredBy(chs: seq<Chapter>, page: int)
  {
    exists k :: 0 <= k < |chs| && Covers(chs[k], page)
  }

  /** Some chapter starts on `page`. */
  ghost predicate StartsAt(chs: seq<Chapter>, page: int)
  {
    exists k :: 0 <= k < |chs| && chs[k].startPage == page
  }

  ghost predicate DistinctIds(chs: seq<Chapter>)
  {
    forall i, j :: 0 <= i < j < |chs| ==> chs[i].id != chs[j].id
  }

  // ----- chained chapters partition the pages they span -----

  /** Chained chapters with increasing starts cover every page from the first
      start to the last page, each page exactly once. */
  lemma {:induction false} ChainedPartition(chs: seq<Chapter>, pageCount: int)
    requires |chs| > 0 && Chained(chs, pageCount) && Ascending(chs)
    ensures forall page :: chs[0].startPage <= page < pageCount ==> CoveredBy(chs, page)
    ensures forall k1, k2, page ::
              (0 <= k1 < |chs| && 0 <= k2 < |chs| && Covers(chs[k1], page) && Covers(chs[k2], page)) ==> k1 == k2
  {
    ChainedCover(chs, pageCount);
    forall k1, k2 | 0 <= k1 < k2 < |chs|
      ensures chs[k1].endPage < chs[k2].startPage
    {
      assert chs[k1].endPage == chs[k1 + 1].startPage - 1;
    }
  }

  lemma {:induction false} ChainedCover(chs: seq<Chapter>, pageCount: int)
    requires |chs| > 0 && Chained(chs, pageCount) && Ascending(chs)
    ensures forall page :: chs[0].startPage <= page < pageCount ==> CoveredBy(chs, page)
  {
    var last := |chs| - 1;
    if last > 0 {
      var init := chs[..last];
      assert Chained(init, chs[last].startPage);
      ChainedCover(init, chs[last].startPage);
      forall page | chs[0].startPage <= page < pageCount
        ensures CoveredBy(chs, page)
      {
        if page >= chs[last].startPage {
          assert Covers(chs[last], page);
        } else {
          assert CoveredBy(init, page);
          var k :| 0 <= k < |init| && Covers(init[k], page);
          assert Covers(chs[k], page);
        }
      }
    } else {
      forall page | chs[0].startPage <= page < pageCount
        ensures CoveredBy(chs, page)
      {
        assert Covers(chs[0], page);
      }
    }
  }

  /** The chapters' texts, in order. */
  function Texts(chs: seq<Chapter>): (ts: seq<string>)
    ensures |ts| == |chs|
  {
    if |chs| == 0 then [] else [chs[0].text] + Texts(chs[1..])
  }

  /** The texts of chained chapters that hold their pages, joined by a blank
      line, are the text of every page from the first start to the end. */
  lemma {:induction false} ChainedTexts(pages: seq<string>, chs: seq<Chapter>)
    requires |chs| > 0 && Chained(chs, |pages|) && HoldsPages(pages, chs)
    ensures Join(Texts(chs), PageSeparator) == PageText(pages, chs[0].startPage, |pages| - 1)
  {
    var s := chs[0].startPage;
    var e := chs[0].endPage;
    if |chs| == 1 {
      assert Texts(chs) == [chs[0].text];
      JoinSmall(chs[0].text, PageSeparator);
    } else {
      var rest := chs[1..];
      ChainedRest(pages, chs);
      ChainedTexts(pages, rest);
      assert Texts(chs) == [chs[0].text] + Texts(rest);
      assert pages[s..|pages|] == pages[s..e + 1] + pages[e + 1..|pages|];
      JoinAppend(pages[s..e + 1], pages[e + 1..|pages|], PageSeparator);
      JoinAppend([chs[0].text], Texts(rest), PageSeparator);
      JoinSmall(chs[0].text, PageSeparator);
    }
  }

  /** Dropping the first of several chained chapters that hold their pages
      leaves chained chapters that hold their pages, starting right after
      the first one ends. */
  lemma {:induction false} ChainedRest(pages: seq<string>, chs: seq<Chapter>)
    requires |chs| > 1 && Chained(chs, |pages|) && HoldsPages(pages, chs)
    ensures Chained(chs[1..], |pages|) && HoldsPages(pages, chs[1..])
    ensures chs[0].endPage + 1 == chs[1..][0].startPage
  {
    var rest := chs[1..];
    forall i, j | 0 <= i && j == i + 1 < |rest|
      ensures rest[i].endPage == rest[j].startPage - 1
    {
      assert rest[i] == chs[i + 1] && rest[j] == chs[j + 1];
    }
  }

  /** Consecutive increasing starts are increasing starts. */
  lemma {:induction false} StepsAscending(chs: seq<Chapter>)
    requires forall i, j :: 0 <= i && j == i + 1 < |chs| ==> chs[i].startPage < chs[j].startPage
    ensures Ascending(chs)
  {
    if |chs| > 1 {
      var rest := chs[1..];
      StepsAscending(rest);
      forall i, j | 0 <= i < j < |chs|
        ensures chs[i].startPage < chs[j].startPage
      {
        if i > 0 {
          assert rest[i - 1].startPage < rest[j - 1].startPage;
        } else if j > 1 {
          assert rest[0].startPage < rest[j - 1].startPage;
        }
      }
    }
  }

  /** Chained chapters that hold their pages have increasing starts. */
  lemma {:induction false} ChainedAscending(pages: seq<string>, chs: seq<Chapter>)
    requires Chained(chs, |pages|) && HoldsPages(pages, chs)
    ensures Ascending(chs)
  {
    StepsAscending(chs);
  }

  // ----- page ranges -----

  /** The page-range fallback: ⌈n/10⌉ chunks, chunk k covering pages 10k to
      min(10k+9, n-1), named `section_{k+1}` and titled with its 1-based
      page numbers; no two share a name. */
  lemma {:induction false} PageRangesShape(doc: Document)
    requires |doc.pages| > 0
    ensures |FromPageRanges(doc)| == (|doc.pages| + 9) / 10
    ensures forall k :: 0 <= k < |FromPageRanges(doc)| ==>
              && FromPageRanges(doc)[k].startPage == 10 * k
              && FromPageRanges(doc)[k].endPage == Min(10 * k + 9, |doc.pages| - 1)
              && FromPageRanges(doc)[k].id == SectionId(k + 1)
              && FromPageRanges(doc)[k].title == RangeTitle(FromPageRanges(doc)[k].startPage, FromPageRanges(doc)[k].endPage)
    ensures DistinctIds(FromPageRanges(doc))
  {
    PageRangesLayout(doc);
    PageRangesIds(doc);
  }

  lemma {:induction false} PageRangesLayout(doc: Document)
    requires |doc.pages| > 0
    ensures |FromPageRanges(doc)| == (|doc.pages| + 9) / 10
    ensures forall k :: 0 <= k < |FromPageRanges(doc)| ==>
              && FromPageRanges(doc)[k].startPage == 10 * k
              && FromPageRanges(doc)[k].endPage == Min(10 * k + 9, |doc.pages| - 1)
              && FromPageRanges(doc)[k].id == SectionId(k + 1)
              && FromPageRanges(doc)[k].title == RangeTitle(FromPageRanges(doc)[k].startPage, FromPageRanges(doc)[k].endPage)
  {
  }

  /** No two ranges share a name. */
  lemma {:induction false} PageRangesIds(doc: Document)
    requires |doc.pages| > 0
    ensures DistinctIds(FromPageRanges(doc))
  {
    var r := FromPageRanges(doc);
    assert forall k :: 0 <= k < |r| ==> r[k].id == "section_" + NatToString(k + 1);
    NumberedIdsDistinct(r, "section_");
  }

  /** Chapters that are non-empty page ranges inside the document, each
      with the text read for its range, hold their pages' text. */
  lemma {:induction false} HoldsByReading(pages: seq<string>, chs: seq<Chapter>)
    requires |pages| > 0
    requires forall k :: 0 <= k < |chs| ==>
               && 0 <= chs[k].startPage <= chs[k].endPage < |pages|
               && chs[k].text == TextRange(pages, chs[k].startPage, chs[k].endPage).value
    ensures HoldsPages(pages, chs)
  {
    forall k | 0 <= k < |chs|
      ensures chs[k].text == PageText(pages, chs[k].startPage, chs[k].endPage)
    {
      TextRangeSpec(pages, chs[k].startPage, chs[k].endPage);
    }
  }

  /** The page ranges are chained and each holds its pages' text. */
  lemma {:induction false} PageRangesHold(doc: Document)
    requires |doc.pages| > 0
    ensures Chained(FromPageRanges(doc), |doc.pages|)
    ensures HoldsPages(doc.pages, FromPageRanges(doc))
  {
    PageRangesChained(doc);
    PageRangesRead(doc);
    HoldsByReading(doc.pages, FromPageRanges(doc));
  }

  /** Each range ends on the page before the next one starts, and the last
      on the last page. */
  lemma {:induction false} PageRangesChained(doc: Document)
    requires |doc.pages| > 0
    ensures Chained(FromPageRanges(doc), |doc.pages|)
  {
    var r := FromPageRanges(doc);
    var n := |doc.pages|;
    forall i, j | 0 <= i && j == i + 1 < |r|
      ensures r[i].endPage == r[j].startPage - 1
    {
      assert 10 * j < n;
    }
  }

  /** Each range is a non-empty range inside the document whose text is
      read for it. */
  lemma {:induction false} PageRangesRead(doc: Document)
    requires |doc.pages| > 0
    ensures forall k :: 0 <= k < |FromPageRanges(doc)| ==>
              var c := FromPageRanges(doc)[k];
              && 0 <= c.startPage <= c.endPage < |doc.pages|
              && c.text == TextRange(doc.pages, c.startPage, c.endPage).value
  {
  }

  /** The page ranges partition the document, starting at its first page,
      and their texts, joined by a blank line, are the whole document's
      text. */
  lemma {:induction false} PageRangesSpec(doc: Document)
    requires |doc.pages| > 0
    ensures |FromPageRanges(doc)| > 0 && FromPageRanges(doc)[0].startPage == 0
    ensures Chained(FromPageRanges(doc), |doc.pages|) && Ascending(FromPageRanges(doc))
    ensures HoldsPages(doc.pages, FromPageRanges(doc)) && DistinctIds(FromPageRanges(doc))
    ensures Join(Texts(FromPageRanges(doc)), PageSeparator) == ExtractText(doc)
  {
    var r := FromPageRanges(doc);
    PageRangesShape(doc);
    PageRangesHold(doc);
    ChainedAscending(doc.pages, r);
    ChainedTexts(doc.pages, r);
    assert doc.pages[0..|doc.pages|] == doc.pages;
  }

  // ----- "Chapter N" patterns -----

  /** Each pattern chapter runs from its heading page to the page before the
      next heading page, or to the last page. */
  lemma {:induction false} PatternBounds(pages: seq<string>, heads: seq<Option<string>>)
    requires |heads| == |pages|
    ensures |PatternChapters(pages, heads)| == |HeadingPages(heads)|
    ensures forall k :: 0 <= k < |PatternChapters(pages, heads)| ==>
              && PatternChapters(pages, heads)[k].startPage == HeadingPages(heads)[k]
              && PatternChapters(pages, heads)[k].startPage <= PatternChapters(pages, heads)[k].endPage
              && PatternChapters(pages, heads)[k].endPage ==
                   NextKept(heads, IsHeading, PatternChapters(pages, heads)[k].startPage + 1) - 1
  {
  }

  /** Chapters that start on the heading pages, in order, and each end just
      before the next heading page (or on the last of `n` pages) are
      chained. */
  lemma {:induction false} ChainedByHeadings(chs: seq<Chapter>, heads: seq<Option<string>>, n: int)
    requires |heads| == n
    requires |chs| == |HeadingPages(heads)|
    requires forall k :: 0 <= k < |chs| ==>
               && HeadingPages(heads)[k] < n
               && chs[k].startPage == HeadingPages(heads)[k]
               && chs[k].endPage == NextKept(heads, IsHeading, HeadingPages(heads)[k] + 1) - 1
    ensures Chained(chs, n)
  {
    forall i, j | 0 <= i && j == i + 1 < |chs|
      ensures chs[i].endPage == chs[j].startPage - 1
    {
      KeptFromSuccessor(heads, IsHeading, 0, i);
    }
    if |chs| > 0 {
      KeptFromSuccessor(heads, IsHeading, 0, |chs| - 1);
    }
  }

  /** The pattern chapters are chained. */
  lemma {:induction false} PatternRanges(pages: seq<string>, heads: seq<Option<string>>)
    requires |heads| == |pages|
    ensures Chained(PatternChapters(pages, heads), |pages|)
  {
    PatternBounds(pages, heads);
    ChainedByHeadings(PatternChapters(pages, heads), heads, |pages|);
  }

  /** Each pattern chapter holds its pages' text. */
  lemma {:induction false} PatternTexts(pages: seq<string>, heads: seq<Option<string>>)
    requires |heads| == |pages|
    ensures HoldsPages(pages, PatternChapters(pages, heads))
  {
    if |pages| > 0 {
      PatternBounds(pages, heads);
      PatternTextsRead(pages, heads);
      HoldsByReading(pages, PatternChapters(pages, heads));
    }
  }

  lemma {:induction false} PatternTextsRead(pages: seq<string>, heads: seq<Option<string>>)
    requires |heads| == |pages|
    ensures forall k :: 0 <= k < |PatternChapters(pages, heads)| ==>
              var c := PatternChapters(pages, heads)[k];
              0 <= c.startPage < |pages| && c.text == TextRange(pages, c.startPage, c.endPage).value
  {
  }

  /** Chapters numbered `prefix + str(k + 1)` in order carry distinct names. */
  lemma {:induction false} NumberedIdsDistinct(chs: seq<Chapter>, prefix: string)
    requires forall k :: 0 <= k < |chs| ==> chs[k].id == prefix + NatToString(k + 1)
    ensures DistinctIds(chs)
  {
    forall i, j | 0 <= i < j < |chs|
      ensures chs[i].id != chs[j].id
    {
      if chs[i].id == chs[j].id {
        NumberedNameInjective(prefix, i + 1, j + 1);
      }
    }
  }

  /** The `k`-th pattern chapter is named `ch_{k+1}` and titled with the
      heading on its page; so no two share a name. */
  lemma {:induction false} PatternNames(pages: seq<string>, heads: seq<Option<string>>)
    requires |heads| == |pages|
    ensures forall k :: 0 <= k < |PatternChapters(pages, heads)| ==>
              && 0 <= PatternChapters(pages, heads)[k].startPage < |pages|
              && heads[PatternChapters(pages, heads)[k].startPage] == Some(PatternChapters(pages, heads)[k].title)
              && PatternChapters(pages, heads)[k].id == ChapterId(k + 1)
    ensures DistinctIds(PatternChapters(pages, heads))
  {
    var r := PatternChapters(pages, heads);
    assert forall k :: 0 <= k < |r| ==> r[k].id == "ch_" + NatToString(k + 1);
    NumberedIdsDistinct(r, "ch_");
  }

  /** The scan over any per-page heading results: the chapters start exactly
      on the heading pages, in page order, are numbered `ch_1`, `ch_2`, ...
      and titled with the heading; each runs to the page before the next
      heading page, the last to the end of the document, and holds those
      pages' text. */
  lemma {:induction false} PatternScan(pages: seq<string>, heads: seq<Option<string>>)
    requires |heads| == |pages|
    ensures |PatternChapters(pages, heads)| == 0 <==> forall q :: !Kept(heads, IsHeading, q)
    ensures forall k :: 0 <= k < |PatternChapters(pages, heads)| ==>
              && 0 <= PatternChapters(pages, heads)[k].startPage < |pages|
              && heads[PatternChapters(pages, heads)[k].startPage] == Some(PatternChapters(pages, heads)[k].title)
              && PatternChapters(pages, heads)[k].id == ChapterId(k + 1)
    ensures forall q :: Kept(heads, IsHeading, q) ==> StartsAt(PatternChapters(pages, heads), q)
    ensures Chained(PatternChapters(pages, heads), |pages|)
    ensures Ascending(PatternChapters(pages, heads))
    ensures HoldsPages(pages, PatternChapters(pages, heads))
    ensures DistinctIds(PatternChapters(pages, heads))
  {
    var hp := HeadingPages(heads);
    var r := PatternChapters(pages, heads);
    PatternBounds(pages, heads);
    PatternRanges(pages, heads);
    PatternTexts(pages, heads);
    PatternNames(pages, heads);
    KeptFromComplete(heads, IsHeading, 0);
    ChainedAscending(pages, r);
    if |r| > 0 {
      assert Kept(heads, IsHeading, r[0].startPage);
    }
    forall q | Kept(heads, IsHeading, q)
      ensures StartsAt(r, q)
    {
      assert q in hp;
      var k :| 0 <= k < |hp| && hp[k] == q;
      assert r[k].startPage == q;
    }
  }

  /** The pattern strategy: the chapters start exactly on the pages where the
      heading pattern matches and are titled with the matched text. */
  lemma {:induction false} PatternsSpec(doc: Document)
    ensures |FromPatterns(doc)| == 0 <==>
              forall q :: 0 <= q < |doc.pages| ==> ChapterPattern.Search(doc.pages[q]).None?
    ensures forall k :: 0 <= k < |FromPatterns(doc)| ==>
              && 0 <= FromPatterns(doc)[k].startPage < |doc.pages|
              && ChapterPattern.Search(doc.pages[FromPatterns(doc)[k].startPage]) == Some(FromPatterns(doc)[k].title)
              && FromPatterns(doc)[k].id == ChapterId(k + 1)
    ensures forall q :: 0 <= q < |doc.pages| && ChapterPattern.Search(doc.pages[q]).Some? ==>
              StartsAt(FromPatterns(doc), q)
    ensures Chained(FromPatterns(doc), |doc.pages|) && Ascending(FromPatterns(doc))
    ensures HoldsPages(doc.pages, FromPatterns(doc)) && DistinctIds(FromPatterns(doc))
  {
    var heads := PageHeadings(doc.pages);
    assert FromPatterns(doc) == PatternChapters(doc.pages, heads);
    PatternScan(doc.pages, heads);
    forall q | 0 <= q < |doc.pages|
      ensures heads[q] == ChapterPattern.Search(doc.pages[q])
      ensures Kept(heads, IsHeading, q) <==> ChapterPattern.Search(doc.pages[q]).Some?
    {
    }
  }

  // ----- table of contents -----

  /** The chapter of one level-1 entry: its page bounds and name come from
      the entry, and reading fails, with the page error, exactly when the
      range is non-empty and ends past the document. */
  lemma {:induction false} TocChapterSpec(pages: seq<string>, toc: seq<TocEntry>, i: nat)
    requires |pages| > 0 && i < |toc|
    ensures TocChapter(pages, toc, i).Ok? <==>
              TocEndPage(toc, i, |pages|) < |pages| || TocEndPage(toc, i, |pages|) < toc[i].page - 1
    ensures TocChapter(pages, toc, i).Err? ==> TocChapter(pages, toc, i).error == PageNotInDocument
    ensures TocChapter(pages, toc, i).Ok? ==>
              && TocChapter(pages, toc, i).value.id == ChapterId(i + 1)
              && TocChapter(pages, toc, i).value.title == toc[i].title
              && TocChapter(pages, toc, i).value.startPage == toc[i].page - 1
              && TocChapter(pages, toc, i).value.endPage == TocEndPage(toc, i, |pages|)
    ensures TocChapter(pages, toc, i).Ok? && TocEndPage(toc, i, |pages|) < toc[i].page - 1 ==>
              TocChapter(pages, toc, i).value.text == ""
    ensures TocChapter(pages, toc, i).Ok? && 0 <= toc[i].page - 1 <= TocEndPage(toc, i, |pages|) ==>
              TocChapter(pages, toc, i).value.text == PageText(pages, toc[i].page - 1, TocEndPage(toc, i, |pages|))
  {
    TextRangeSpec(pages, toc[i].page - 1, TocEndPage(toc, i, |pages|));
  }

  /** Every entry listed in `ks` has a readable range. */
  ghost predicate TocReadable(pages: seq<string>, toc: seq<TocEntry>, ks: seq<nat>)
    requires |pages| > 0
  {
    forall k :: 0 <= k < |ks| ==> ks[k] < |toc| && TocChapter(pages, toc, ks[k]).Ok?
  }

  lemma {:induction false} TocReadableCons(pages: seq<string>, toc: seq<TocEntry>, i: nat, rest: seq<nat>)
    requires |pages| > 0 && i < |toc|
    ensures TocReadable(pages, toc, [i] + rest) <==> TocChapter(pages, toc, i).Ok? && TocReadable(pages, toc, rest)
  {
    var ks := [i] + rest;
    if TocReadable(pages, toc, ks) {
      assert ks[0] == i;
      forall k | 0 <= k < |rest|
        ensures rest[k] < |toc| && TocChapter(pages, toc, rest[k]).Ok?
      {
        assert ks[k + 1] == rest[k];
      }
    }
    if TocChapter(pages, toc, i).Ok? && TocReadable(pages, toc, rest) {
      forall k | 0 <= k < |ks|
        ensures ks[k] < |toc| && TocChapter(pages, toc, ks[k]).Ok?
      {
        if k > 0 {
          assert ks[k] == rest[k - 1];
        }
      }
    }
  }

  /** The scan from entry `i` succeeds exactly when every level-1 entry from
      `i` on has a readable range, and fails with the page error otherwise. */
  lemma {:induction false} TocScanOutcome(pages: seq<string>, toc: seq<TocEntry>, i: nat)
    requires |pages| > 0 && i <= |toc|
    ensures TocChaptersFrom(pages, toc, i).Ok? <==> TocReadable(pages, toc, KeptFrom(toc, IsTopLevel, i))
    ensures TocChaptersFrom(pages, toc, i).Err? ==> TocChaptersFrom(pages, toc, i).error == PageNotInDocument
    decreases |toc| - i
  {
    if i < |toc| {
      TocScanOutcome(pages, toc, i + 1);
      var rest := KeptFrom(toc, IsTopLevel, i + 1);
      if IsTopLevel(toc[i]) {
        assert KeptFrom(toc, IsTopLevel, i) == [i] + rest;
        TocReadableCons(pages, toc, i, rest);
        TocChapterSpec(pages, toc, i);
      } else {
        assert KeptFrom(toc, IsTopLevel, i) == rest;
        assert TocChaptersFrom(pages, toc, i) == TocChaptersFrom(pages, toc, i + 1);
      }
    }
  }

  /** A successful scan from entry `i` yields one chapter per level-1 entry
      from `i` on, in table order. */
  lemma {:induction false} TocScanValues(pages: seq<string>, toc: seq<TocEntry>, i: nat)
    requires |pages| > 0 && i <= |toc| && TocChaptersFrom(pages, toc, i).Ok?
    ensures |TocChaptersFrom(pages, toc, i).value| == |KeptFrom(toc, IsTopLevel, i)|
    ensures forall k :: 0 <= k < |KeptFrom(toc, IsTopLevel, i)| ==>
              && TocChapter(pages, toc, KeptFrom(toc, IsTopLevel, i)[k]).Ok?
              && TocChaptersFrom(pages, toc, i).value[k] == TocChapter(pages, toc, KeptFrom(toc, IsTopLevel, i)[k]).value
    decreases |toc| - i
  {
    if i < |toc| {
      TocScanValues(pages, toc, i + 1);
      var tl := KeptFrom(toc, IsTopLevel, i);
      var rest := KeptFrom(toc, IsTopLevel, i + 1);
      if IsTopLevel(toc[i]) {
        assert tl == [i] + rest;
        var r := TocChaptersFrom(pages, toc, i).value;
        var c := TocChapter(pages, toc, i);
        var more := TocChaptersFrom(pages, toc, i + 1).value;
        assert r == [c.value] + more;
        forall k | 0 <= k < |tl|
          ensures TocChapter(pages, toc, tl[k]).Ok? && r[k] == TocChapter(pages, toc, tl[k]).value
        {
          if k > 0 {
            assert tl[k] == rest[k - 1];
          }
        }
      } else {
        assert tl == rest;
      }
    }
  }

  /** The level-1 entries are listed once each, in table order. */
  lemma {:induction false} TopLevelSpec(toc: seq<TocEntry>)
    ensures forall t :: 0 <= t < |toc| ==> (toc[t].level == 1 <==> t in TopLevel(toc))
    ensures forall t :: t in TopLevel(toc) ==> 0 <= t < |toc| && toc[t].level == 1
    ensures Increasing(TopLevel(toc))
  {
    KeptFromComplete(toc, IsTopLevel, 0);
    KeptFromIncreasing(toc, IsTopLevel, 0);
    forall t | 0 <= t < |toc| && toc[t].level == 1
      ensures t in TopLevel(toc)
    {
      assert Kept(toc, IsTopLevel, t);
    }
  }

  /** Table-of-contents extraction fails, with the page error, exactly when
      some level-1 entry's range is non-empty and ends past the document. */
  lemma {:induction false} TocOutcome(doc: Document)
    requires |doc.pages| > 0
    ensures FromToc(doc).Ok? <==>
              forall k :: 0 <= k < |TopLevel(doc.toc)| ==>
                TopLevel(doc.toc)[k] < |doc.toc| &&
                (|| TocEndPage(doc.toc, TopLevel(doc.toc)[k], |doc.pages|) < |doc.pages|
                 || TocEndPage(doc.toc, TopLevel(doc.toc)[k], |doc.pages|) < doc.toc[TopLevel(doc.toc)[k]].page - 1)
    ensures FromToc(doc).Err? ==> FromToc(doc).error == PageNotInDocument
  {
    var tl := TopLevel(doc.toc);
    TocScanOutcome(doc.pages, doc.toc, 0);
    forall k | 0 <= k < |tl|
      ensures TocChapter(doc.pages, doc.toc, tl[k]).Ok? <==>
                (|| TocEndPage(doc.toc, tl[k], |doc.pages|) < |doc.pages|
                 || TocEndPage(doc.toc, tl[k], |doc.pages|) < doc.toc[tl[k]].page - 1)
    {
      TocChapterSpec(doc.pages, doc.toc, tl[k]);
    }
  }

  /** On success, the chapters are the level-1 entries in table order: the
      `k`-th is named after the entry's index in the whole table (so entries
      of other levels leave gaps in the numbering), carries its title, starts
      on the page before its 1-based page and ends two pages before the next
      level-1 entry's page, or on the last page. */
  lemma {:induction false} TocShape(doc: Document)
    requires |doc.pages| > 0 && FromToc(doc).Ok?
    ensures |FromToc(doc).value| == |TopLevel(doc.toc)|
    ensures forall k :: 0 <= k < |FromToc(doc).value| ==>
              && TopLevel(doc.toc)[k] < |doc.toc|
              && FromToc(doc).value[k].id == ChapterId(TopLevel(doc.toc)[k] + 1)
              && FromToc(doc).value[k].title == doc.toc[TopLevel(doc.toc)[k]].title
              && FromToc(doc).value[k].startPage == doc.toc[TopLevel(doc.toc)[k]].page - 1
              && FromToc(doc).value[k].endPage == TocEndPage(doc.toc, TopLevel(doc.toc)[k], |doc.pages|)
  {
    var tl := TopLevel(doc.toc);
    TocScanValues(doc.pages, doc.toc, 0);
    forall k | 0 <= k < |tl|
      ensures TocChapter(doc.pages, doc.toc, tl[k]).Ok? ==>
                && TocChapter(doc.pages, doc.toc, tl[k]).value.id == ChapterId(tl[k] + 1)
                && TocChapter(doc.pages, doc.toc, tl[k]).value.title == doc.toc[tl[k]].title
                && TocChapter(doc.pages, doc.toc, tl[k]).value.startPage == doc.toc[tl[k]].page - 1
                && TocChapter(doc.pages, doc.toc, tl[k]).value.endPage == TocEndPage(doc.toc, tl[k], |doc.pages|)
    {
      TocChapterSpec(doc.pages, doc.toc, tl[k]);
    }
  }

  /** On success, each chapter's text is "" when its range is empty and the
      text of its pages when the range lies in the document. */
  lemma {:induction false} TocTexts(doc: Document)
    requires |doc.pages| > 0 && FromToc(doc).Ok?
    ensures forall k :: 0 <= k < |FromToc(doc).value| ==>
              (FromToc(doc).value[k].endPage < FromToc(doc).value[k].startPage ==> FromToc(doc).value[k].text == "")
    ensures forall k :: 0 <= k < |FromToc(doc).value| && 0 <= FromToc(doc).value[k].startPage <= FromToc(doc).value[k].endPage ==>
              FromToc(doc).value[k].endPage < |doc.pages| &&
              FromToc(doc).value[k].text == PageText(doc.pages, FromToc(doc).value[k].startPage, FromToc(doc).value[k].endPage)
  {
    var tl := TopLevel(doc.toc);
    TocScanValues(doc.pages, doc.toc, 0);
    forall k | 0 <= k < |tl|
      ensures TocChapter(doc.pages, doc.toc, tl[k]).Ok? ==>
                var c := TocChapter(doc.pages, doc.toc, tl[k]).value;
                && (c.endPage < c.startPage ==> c.text == "")
                && (0 <= c.startPage <= c.endPage ==> c.endPage < |doc.pages| && c.text == PageText(doc.pages, c.startPage, c.endPage))
    {
      TocChapterSpec(doc.pages, doc.toc, tl[k]);
    }
  }

  /** On success, the chapters are chained: each ends on the page before the
      next one starts and the last ends on the document's last page. */
  lemma {:induction false} TocChained(doc: Document)
    requires |doc.pages| > 0 && FromToc(doc).Ok?
    ensures Chained(FromToc(doc).value, |doc.pages|)
  {
    TocShape(doc);
    ChainedByEntries(FromToc(doc).value, doc.toc, |doc.pages|);
  }

  /** Chapters that start on the page before each level-1 entry's 1-based
      page and end where `TocEndPage` says are chained. */
  lemma {:induction false} ChainedByEntries(chs: seq<Chapter>, toc: seq<TocEntry>, n: nat)
    requires |chs| == |TopLevel(toc)|
    requires forall k :: 0 <= k < |chs| ==>
               && TopLevel(toc)[k] < |toc|
               && chs[k].startPage == toc[TopLevel(toc)[k]].page - 1
               && chs[k].endPage == TocEndPage(toc, TopLevel(toc)[k], n)
    ensures Chained(chs, n)
  {
    forall i, j | 0 <= i && j == i + 1 < |chs|
      ensures chs[i].endPage == chs[j].startPage - 1
    {
      KeptFromSuccessor(toc, IsTopLevel, 0, i);
    }
    if |chs| > 0 {
      KeptFromSuccessor(toc, IsTopLevel, 0, |chs| - 1);
    }
  }

  /** On success, no two chapters share a name. */
  lemma {:induction false} TocIds(doc: Document)
    requires |doc.pages| > 0 && FromToc(doc).Ok?
    ensures DistinctIds(FromToc(doc).value)
  {
    var r := FromToc(doc).value;
    var tl := TopLevel(doc.toc);
    TocShape(doc);
    KeptFromIncreasing(doc.toc, IsTopLevel, 0);
    forall i, j | 0 <= i < j < |r|
      ensures r[i].id != r[j].id
    {
      if r[i].id == r[j].id {
        NumberedNameInjective("ch_", tl[i] + 1, tl[j] + 1);
      }
    }
  }
}

=== FILE: source_cache.dfy ===
/** The prompt-cache bookkeeping every source inherits: a cache id and its
    expiry time, reused while valid and otherwise recreated through the AI
    provider and persisted through the source service. Time is an integer;
    the provider and the service are oracles. */
module SourceCache {
  import opened Values
  import opened Exceptions

  /** A source's `cache_id` and `cache_expires_at`. */
  datatype CacheState = CacheState(cacheId: Option<string>, expiresAt: Option<int>)

  /** A cache the provider created: its id and when it expires. */
  datatype CacheResult = CacheResult(cacheId: string, expiresAt: int)

  /** The AI provider as the cache logic sees it: whether it supports caching,
      and what `create_cache` gives for a content (a cache, nothing, or an
      exception). */
  datatype Provider = Provider(supportsCaching: bool, createCache: string -> Result<Option<CacheResult>>)

  /** A persisted update of a source carrying exactly its two cache fields. */
  datatype CacheWrite = CacheWrite(cacheId: Option<string>, expiresAt: Option<int>)

  /** The source service as the cache logic sees it: what persisting an
      update raises, if anything. */
  datatype SourceService = SourceService(persist: CacheWrite -> Option<Exception>)

  /** The state after a cache operation, the updates it issued (in order),
      and what it returned or raised. */
  datatype CacheStep = CacheStep(state: CacheState, writes: seq<CacheWrite>, result: Result<Option<string>>)

  const NoCache: CacheState := CacheState(None, None)

  /** `_is_cache_valid`: a non-empty id, an expiry, and `now` strictly before it. */
  predicate IsValid(st: CacheState, now: int)
  {
    Truthy(st.cacheId) && st.expiresAt.Some? && now < st.expiresAt.value
  }

  /** The exception the provider-error wrapper raises for any exception `e`
      escaping the cache creation. */
  function ProviderError(e: Exception): (r: Exception)
    ensures r.Raised? && r.cls == AIProviderException && IsSubclass(r.cls, AIDEException)
  {
    AideError(AIProviderException, "AIProviderException error: " + Str(e), JNull)
  }

  /** `_create_cache`, for a source whose full content is `content` and whose
      source service is `service` (`None` when none was injected). */
  function CreateCache(st: CacheState, content: string, p: Provider, service: Option<SourceService>): (r: CacheStep)
    // Without caching support or a service, nothing happens and None is returned.
    ensures !p.supportsCaching || service.None? ==> r == CacheStep(st, [], Ok(None))
    // At most one update is issued, and it carries exactly the new cache fields.
    ensures |r.writes| <= 1
    ensures |r.writes| == 1 ==> r.writes[0] == CacheWrite(r.state.cacheId, r.state.expiresAt)
    // The state changes only to a cache the provider created for this content.
    ensures r.state != st ==>
              && p.createCache(content).Ok? && p.createCache(content).value.Some?
              && r.state == CacheState(Some(p.createCache(content).value.value.cacheId),
                                       Some(p.createCache(content).value.value.expiresAt))
    // A provider that creates nothing leaves the state alone and returns the old id.
    ensures p.supportsCaching && service.Some? && p.createCache(content) == Ok(None) ==>
              r == CacheStep(st, [], Ok(st.cacheId))
    // A created cache is adopted, persisted, and its id returned unless persisting raises.
    ensures p.supportsCaching && service.Some? && p.createCache(content).Ok? && p.createCache(content).value.Some? ==>
              && r.state.cacheId == Some(p.createCache(content).value.value.cacheId)
              && r.state.expiresAt == Some(p.createCache(content).value.value.expiresAt)
              && |r.writes| == 1
              && (r.result.Ok? <==> service.value.persist(r.writes[0]).None?)
              && (r.result.Ok? ==> r.result.value == r.state.cacheId)
    // Every exception surfaces wrapped as a provider error.
    ensures r.result.Err? ==> exists e :: r.result.error == ProviderError(e)
  {
    if !p.supportsCaching || service.None? then CacheStep(st, [], Ok(None))
    else
      match p.createCache(content)
      case Err(e) => CacheStep(st, [], Err(ProviderError(e)))
      case Ok(None) => CacheStep(st, [], Ok(st.cacheId))
      case Ok(Some(c)) =>
        var st' := CacheState(Some(c.cacheId), Some(c.expiresAt));
        var w := CacheWrite(st'.cacheId, st'.expiresAt);
        match service.value.persist(w)
        case Some(e) => CacheStep(st', [w], Err(ProviderError(e)))
        case None => CacheStep(st', [w], Ok(st'.cacheId))
  }

  /** `get_cache_id`: the current id while the cache is valid, otherwise a
      new cache. */
  function GetCacheId(st: CacheState, now: int, content: string, p: Provider, service: Option<SourceService>): (r: CacheStep)
    ensures IsValid(st, now) ==> r == CacheStep(st, [], Ok(st.cacheId)) && Truthy(r.result.value)
    ensures !IsValid(st, now) ==> r == CreateCache(st, content, p, service)
  {
    if IsValid(st, now) then CacheStep(st, [], Ok(st.cacheId))
    else CreateCache(st, content, p, service)
  }

  /** `invalidate_cache`: both fields cleared, and the clear persisted when a
      service is present; a failing persist raises unwrapped. */
  function Invalidate(st: CacheState, service: Option<SourceService>): (r: CacheStep)
    ensures r.state == NoCache
    ensures |r.writes| == (if service.Some? then 1 else 0)
    ensures service.Some? ==> r.writes[0] == CacheWrite(None, None)
    ensures r.result.Err? <==> service.Some? && service.value.persist(CacheWrite(None, None)).Some?
    ensures r.result.Err? ==> r.result.error == service.value.persist(CacheWrite(None, None)).value
    ensures r.result.Ok? ==> r.result.value.None?
  {
    if service.None? then CacheStep(NoCache, [], Ok(None))
    else
      match service.value.persist(CacheWrite(None, None))
      case Some(e) => CacheStep(NoCache, [CacheWrite(None, None)], Err(e))
      case None => CacheStep(NoCache, [CacheWrite(None, None)], Ok(None))
  }

  /** Expiry is strict, and time only runs out: a cache valid now was valid
      earlier, and one invalid now stays invalid later. */
  lemma {:induction false} ValidityOverTime(st: CacheState, now: int, later: int)
    requires now <= later
    ensures IsValid(st, later) ==> IsValid(st, now)
    ensures !IsValid(st, now) ==> !IsValid(st, later)
    ensures st.expiresAt.Some? ==> !IsValid(st, st.expiresAt.value)
  {
  }

  /** A cache with a non-empty id is reused, with no provider call and no
      update, at every moment before it expires; from its expiry on, asking
      for it creates a new one. */
  lemma {:induction false} ReuseUntilExpiry(id: string, expiry: int, now: int, content: string, p: Provider, service: Option<SourceService>)
    requires id != ""
    ensures now < expiry ==>
              GetCacheId(CacheState(Some(id), Some(expiry)), now, content, p, service) ==
              CacheStep(CacheState(Some(id), Some(expiry)), [], Ok(Some(id)))
    ensures expiry <= now ==>
              GetCacheId(CacheState(Some(id), Some(expiry)), now, content, p, service) ==
              CreateCache(CacheState(Some(id), Some(expiry)), content, p, service)
  {
  }

  /** A freshly created and persisted cache is what the next request gets
      back, without calling the provider again, as long as it has not
      expired. */
  lemma {:induction false} ReuseAfterCreation(st: CacheState, content: string, p: Provider, s: SourceService, now: int, content': string, p': Provider)
    requires p.supportsCaching && p.createCache(content).Ok? && p.createCache(content).value.Some?
    requires p.createCache(content).value.value.cacheId != ""
    requires now < p.createCache(content).value.value.expiresAt
    requires CreateCache(st, content, p, Some(s)).result.Ok?
    ensures GetCacheId(CreateCache(st, content, p, Some(s)).state, now, content', p', Some(s)) ==
              CacheStep(CreateCache(st, content, p, Some(s)).state, [], Ok(Some(p.createCache(content).value.value.cacheId)))
  {
  }

  /** After an invalidation the cache is invalid at every time, so the next
      request goes to the provider. */
  lemma {:induction false} InvalidateForcesCreation(st: CacheState, service: Option<SourceService>, now: int, content: string, p: Provider)
    ensures !IsValid(Invalidate(st, service).state, now)
    ensures GetCacheId(Invalidate(st, service).state, now, content, p, service) ==
              CreateCache(NoCache, content, p, service)
  {
  }

  /** Without a source service nothing is ever written and the state never
      changes, whatever the provider does. */
  lemma {:induction false} NoServiceNoCache(st: CacheState, now: int, content: string, p: Provider)
    ensures GetCacheId(st, now, content, p, None).state == st
    ensures GetCacheId(st, now, content, p, None).writes == []
    ensures !IsValid(st, now) ==> GetCacheId(st, now, content, p, None).result == Ok(None)
  {
  }
}

=== FILE: source_routes.dfy ===
/** The source endpoints that gate uploads and deletions: the checks an
    upload passes before the PDF is processed, what a processed upload
    stores, reading a source back for the viewer, and deleting a source with
    its file. The database is a map from source id to row; the file store,
    the PDF library, the clock, the AI provider and the database's failures
    are oracles. */
module SourceRoutes {
  import opened Values
  import opened Exceptions
  import opened Registry
  import opened SourceCache
  import opened PdfParser
  import opened PdfSource
  import opened ErrorHandlers

  const PdfContentType: string := "application/pdf"

  /** 50 MiB: the largest upload accepted. */
  const MaxUploadBytes: nat := 50 * 1024 * 1024

  /** The source rows, by id. */
  type Db = map<string, SourceRecord>

  /** The source service's `get_source`: the row, or not-found. */
  function GetRecord(db: Db, id: string): (r: Result<SourceRecord>)
    ensures r.Ok? <==> id in db
    ensures r.Ok? ==> r.value == db[id]
    ensures r.Err? ==> Respond(r.error).status == 404
  {
    NotFoundResponse("Source", id);
    if id in db then Ok(db[id]) else Err(EntityNotFound("Source", id))
  }

  /** What the upload meets once it processes the file: the outcome of
      opening it, of storing it, the time, the AI provider, what persisting a
      cache update raises, and what the final row update raises. */
  datatype UploadWorld = UploadWorld(opening: Result<Document>, stored: Result<string>, now: int,
                                     provider: Provider, persist: CacheWrite -> Option<Exception>,
                                     updateFailure: Option<Exception>)

  /** The rows after a request and what it returned or raised. */
  datatype Outcome<T> = Outcome(db: Db, result: Result<T>)

  /** Any exception while processing the upload, re-raised as a 500. */
  function ProcessingFailure(e: Exception): Exception
  {
    HttpError(500, "Failed to process PDF: " + Str(e))
  }

  /** The row after the cache updates of a successful cache step: the last
      one wins. */
  function ApplyCache(rec: SourceRecord, writes: seq<CacheWrite>): SourceRecord
  {
    if |writes| == 0 then rec
    else rec.(cacheId := writes[|writes| - 1].cacheId, cacheExpiresAt := writes[|writes| - 1].expiresAt)
  }

  /** The row as the successful upload stores it. */
  function Uploaded(rec: SourceRecord, done: SetupDone): SourceRecord
  {
    rec.(storagePath := Some(done.source.storagePath), metaData := Some(done.metadata),
         cacheId := done.source.cache.cacheId, cacheExpiresAt := done.source.cache.expiresAt)
  }

  /** The checks an upload passes before processing, in order: the content
      type, the row's existence, no earlier upload, the size. */
  function UploadGate(db: Db, id: string, contentType: string, size: nat): (r: Result<SourceRecord>)
  {
    if contentType != PdfContentType then Err(HttpError(400, "Only PDF files are supported"))
    else
      var rec :- GetRecord(db, id);
      if Truthy(rec.storagePath) then
        Err(HttpError(409, "Source content already uploaded. Delete and re-create to replace."))
      else if size > MaxUploadBytes then Err(HttpError(413, "File too large (max 50MB)"))
      else Ok(rec)
  }

  /** The source instance the upload creates: fresh, with no cache. */
  function Fresh(rec: SourceRecord): SourceClass -> PdfSource
  {
    _ => NewSource(rec.id, rec.title, NoCache)
  }

  /** The setup the upload runs on a fresh instance of the row's type, with
      the file store and the source service present. */
  function UploadSetup(sources: Registry<SourceClass>, rec: SourceRecord, w: UploadWorld): Result<SetupDone>
    requires Valid(sources)
  {
    var src :- Instantiate(sources, "source", rec.kind, Fresh(rec));
    Setup(src, w.opening, Some(w.stored), w.now, w.provider, Some(SourceService(w.persist)))
  }

  /** `POST /sources/{id}/upload`: the gate, then instantiation, setup and
      the row update; any exception in these three becomes a 500. On success
      the response is the source's view data. */
  function Upload(db: Db, sources: Registry<SourceClass>, id: string, contentType: string, size: nat,
                  w: UploadWorld): Outcome<map<string, Json>>
    requires Valid(sources)
  {
    match UploadGate(db, id, contentType, size)
    case Err(e) => Outcome(db, Err(e))
    case Ok(rec) =>
      match UploadSetup(sources, rec, w)
      case Err(e) => Outcome(db, Err(ProcessingFailure(e)))
      case Ok(done) =>
        match w.updateFailure
        case Some(e) => Outcome(db[id := ApplyCache(rec, done.writes)], Err(ProcessingFailure(e)))
        case None => Outcome(db[id := Uploaded(rec, done)], Ok(ViewData(done.source)))
  }

  /** The gate's verdicts and their statuses: a non-PDF upload is refused
      with 400 before the row is even looked up, a missing row answers 404,
      an already uploaded one 409, and a file above 50 MiB 413; the gate
      passes exactly when none of these applies. */
  lemma {:induction false} UploadGateSpec(db: Db, id: string, contentType: string, size: nat)
    ensures UploadGate(db, id, contentType, size).Ok? <==>
              contentType == PdfContentType && id in db && !Truthy(db[id].storagePath) && size <= MaxUploadBytes
    ensures UploadGate(db, id, contentType, size).Ok? ==> UploadGate(db, id, contentType, size).value == db[id]
    ensures contentType != PdfContentType ==>
              Respond(UploadGate(db, id, contentType, size).error) ==
              Response(400, JObject(map["detail" := JString("Only PDF files are supported")]))
    ensures contentType == PdfContentType && id !in db ==>
              UploadGate(db, id, contentType, size) == Err(EntityNotFound("Source", id)) &&
              Respond(UploadGate(db, id, contentType, size).error).status == 404
    ensures contentType == PdfContentType && id in db && Truthy(db[id].storagePath) ==>
              Respond(UploadGate(db, id, contentType, size).error).status == 409
    ensures contentType == PdfContentType && id in db && !Truthy(db[id].storagePath) && size > MaxUploadBytes ==>
              Respond(UploadGate(db, id, contentType, size).error).status == 413
  {
  }

  /** An upload succeeds exactly when the gate passes, the row's type is
      registered, the PDF is extracted, the file is stored, the cache step
      does not raise and the row update does not raise. Then only that row
      changes: it records the stored path, the chapters' metadata and the
      cache, and the response is the set-up source's view data. */
  lemma {:induction false} UploadSuccess(db: Db, sources: Registry<SourceClass>, id: string, contentType: string, size: nat,
                      w: UploadWorld)
    requires Valid(sources)
    ensures Upload(db, sources, id, contentType, size, w).result.Ok? <==>
              && UploadGate(db, id, contentType, size).Ok?
              && db[id].kind in sources.entries
              && ExtractChapters(w.opening).Ok?
              && w.stored.Ok?
              && GetCacheId(NoCache, w.now, FullContent(ExtractChapters(w.opening).value), w.provider,
                            Some(SourceService(w.persist))).result.Ok?
              && w.updateFailure.None?
    ensures Upload(db, sources, id, contentType, size, w).result.Ok? ==>
              && var done := UploadSetup(sources, db[id], w).value;
              && Upload(db, sources, id, contentType, size, w).db == db[id := Uploaded(db[id], done)]
              && Upload(db, sources, id, contentType, size, w).result.value == ViewData(done.source)
              && done.source.storagePath == w.stored.value
              && done.source.chapters == ExtractChapters(w.opening).value
              && done.metadata == Metadata(Some(StoreAll(done.source.chapters)))
  {
    UploadGateSpec(db, id, contentType, size);
  }

  /** Every failure past the gate answers 500 with the processing message,
      and leaves the row's storage path and metadata as they were, so the
      upload may be tried again; only cache updates already persisted
      remain. */
  lemma {:induction false} UploadFailureRetryable(db: Db, sources: Registry<SourceClass>, id: string, contentType: string, size: nat,
                               w: UploadWorld)
    requires Valid(sources)
    requires UploadGate(db, id, contentType, size).Ok?
    requires Upload(db, sources, id, contentType, size, w).result.Err?
    ensures Respond(Upload(db, sources, id, contentType, size, w).result.error).status == 500
    ensures UploadSetup(sources, db[id], w).Err? ==>
              Upload(db, sources, id, contentType, size, w).result.error == ProcessingFailure(UploadSetup(sources, db[id], w).error)
    ensures UploadSetup(sources, db[id], w).Ok? ==>
              w.updateFailure.Some? &&
              Upload(db, sources, id, contentType, size, w).result.error == ProcessingFailure(w.updateFailure.value)
    ensures Upload(db, sources, id, contentType, size, w).db.Keys == db.Keys
    ensures Upload(db, sources, id, contentType, size, w).db[id].storagePath == db[id].storagePath
    ensures Upload(db, sources, id, contentType, size, w).db[id].metaData == db[id].metaData
    ensures UploadGate(Upload(db, sources, id, contentType, size, w).db, id, contentType, size).Ok?
  {
    UploadGateSpec(db, id, contentType, size);
    var rec := db[id];
    var out := Upload(db, sources, id, contentType, size, w);
    match UploadSetup(sources, rec, w) {
      case Err(e) =>
        assert out == Outcome(db, Err(ProcessingFailure(e)));
      case Ok(done) =>
        var e := w.updateFailure.value;
        assert out == Outcome(db[id := ApplyCache(rec, done.writes)], Err(ProcessingFailure(e)));
        assert out.db[id].storagePath == rec.storagePath;
    }
    UploadGateSpec(out.db, id, contentType, size);
  }

  /** A source is uploaded at most once: after a successful upload that
      stored the file under a non-empty path, every further upload of a PDF
      is refused with 409 and changes nothing. */
  lemma {:induction false} UploadOnce(db: Db, sources: Registry<SourceClass>, id: string, size: nat, w: UploadWorld,
                   size': nat, w': UploadWorld)
    requires Valid(sources)
    requires id in db && !Truthy(db[id].storagePath) && size <= MaxUploadBytes
    requires UploadSetup(sources, db[id], w).Ok? && w.updateFailure.None?
    requires w.stored.Ok? && w.stored.value != ""
    ensures var db' := Upload(db, sources, id, PdfContentType, size, w).db;
            && Upload(db', sources, id, PdfContentType, size', w') == Outcome(db', Upload(db', sources, id, PdfContentType, size', w').result)
            && Respond(Upload(db', sources, id, PdfContentType, size', w').result.error).status == 409
  {
    UploadSuccess(db, sources, id, PdfContentType, size, w);
    var db' := Upload(db, sources, id, PdfContentType, size, w).db;
    var done := UploadSetup(sources, db[id], w).value;
    assert db' == db[id := Uploaded(db[id], done)];
    assert db'[id].storagePath == Some(w.stored.value);
    UploadGateSpec(db', id, PdfContentType, size');
    var out := Upload(db', sources, id, PdfContentType, size', w');
    assert out == Outcome(db', out.result);
  }

  /** `GET /sources/{id}`: the row, its type's class, the source rebuilt from
      the row, and its view data. */
  function GetSource(db: Db, sources: Registry<SourceClass>, id: string): (r: Result<map<string, Json>>)
    requires Valid(sources)
    ensures r.Ok? <==> id in db && db[id].kind in sources.entries
    ensures id !in db ==> Respond(r.error).status == 404
    ensures id in db && db[id].kind !in sources.entries ==> Respond(r.error).status == 500
    ensures r.Ok? ==> r.value == ViewData(SetupFromDb(db[id]))
  {
    var rec :- GetRecord(db, id);
    match GetSourceClass(sources, rec.kind)
    case Err(e) =>
      AideClasses(e.cls);
      Err(e)
    case Ok(_) => Ok(ViewData(SetupFromDb(rec)))
  }

  /** An upload that passes the gate, whose setup succeeds and whose row
      update does not raise, succeeds; the source then reads back with the same
      chapters, in order, each ending on its start page, the same current
      chapter and the stored file's path. */
  lemma {:induction false} UploadThenView(db: Db, sources: Registry<SourceClass>, id: string, size: nat, w: UploadWorld)
    requires Valid(sources)
    requires id in db && !Truthy(db[id].storagePath) && size <= MaxUploadBytes
    requires UploadSetup(sources, db[id], w).Ok? && w.updateFailure.None?
    ensures Upload(db, sources, id, PdfContentType, size, w).result.Ok? && id in Upload(db, sources, id, PdfContentType, size, w).db
    ensures id in db && UploadSetup(sources, db[id], w).Ok? && id in Upload(db, sources, id, PdfContentType, size, w).db ==>
            var done := UploadSetup(sources, db[id], w).value;
            var back := SetupFromDb(Upload(db, sources, id, PdfContentType, size, w).db[id]);
            && |back.chapters| == |done.source.chapters|
            && (forall k :: 0 <= k < |back.chapters| ==>
                  back.chapters[k] == done.source.chapters[k].(endPage := done.source.chapters[k].startPage, text := ""))
            && back.currentChapterId == done.source.currentChapterId
            && back.storagePath == done.source.storagePath
            && back.cache == done.source.cache
  {
    UploadSuccess(db, sources, id, PdfContentType, size, w);
    var done := UploadSetup(sources, db[id], w).value;
    var rec := Upload(db, sources, id, PdfContentType, size, w).db[id];
    assert rec == Uploaded(db[id], done);
    ChapterExtraction.ExtractionChained(w.opening);
    ReloadAfterSetup(done, rec);
  }

  /** The outcome of a deletion: the rows after it, the files it removed
      from the store, and whether it raised. */
  datatype Deletion = Deletion(db: Db, removedFiles: seq<string>, result: Result<()>)

  /** `DELETE /sources/{id}`: the row must exist; its file is removed from
      the store first when it has a storage path, then the row. A failing
      store removal keeps the row. */
  function Delete(db: Db, id: string, storeFailure: Option<Exception>, rowFailure: Option<Exception>): (r: Deletion)
    ensures r.result.Ok? <==>
              id in db && (!Truthy(db[id].storagePath) || storeFailure.None?) && rowFailure.None?
    ensures r.result.Ok? ==> r.db == db - {id}
    ensures r.result.Err? ==> r.db == db
    ensures id !in db ==> r.removedFiles == [] && Respond(r.result.error).status == 404
    ensures r.removedFiles != [] ==> id in db && Truthy(db[id].storagePath) && storeFailure.None? &&
                                     r.removedFiles == [db[id].storagePath.value]
    ensures id in db && Truthy(db[id].storagePath) && storeFailure.None? ==>
              r.removedFiles == [db[id].storagePath.value]
    ensures r.result.Err? && id in db && Truthy(db[id].storagePath) && storeFailure.Some? ==>
              r.result.error == storeFailure.value
  {
    match GetRecord(db, id)
    case Err(e) => Deletion(db, [], Err(e))
    case Ok(rec) =>
      if Truthy(rec.storagePath) && storeFailure.Some? then Deletion(db, [], Err(storeFailure.value))
      else
        var files := if Truthy(rec.storagePath) then [rec.storagePath.value] else [];
        match rowFailure
        case Some(e) => Deletion(db, files, Err(e))
        case None => Deletion(db - {id}, files, Ok(()))
  }

  /** Deleting an uploaded source removes the file the upload stored, and
      the id is then unknown to every endpoint. */
  lemma {:induction false} DeleteAfterUpload(db: Db, sources: Registry<SourceClass>, id: string, size: nat, w: UploadWorld,
                          size': nat, w': UploadWorld)
    requires Valid(sources)
    requires id in db && !Truthy(db[id].storagePath) && size <= MaxUploadBytes
    requires UploadSetup(sources, db[id], w).Ok? && w.updateFailure.None?
    requires w.stored.Ok? && w.stored.value != ""
    ensures var del := Delete(Upload(db, sources, id, PdfContentType, size, w).db, id, None, None);
            && del.result.Ok?
            && del.removedFiles == [w.stored.value]
            && Respond(GetSource(del.db, sources, id).error).status == 404
            && Respond(Upload(del.db, sources, id, PdfContentType, size', w').result.error).status == 404
  {
    UploadSuccess(db, sources, id, PdfContentType, size, w);
    var db' := Upload(db, sources, id, PdfContentType, size, w).db;
    assert db'[id].storagePath == Some(w.stored.value);
    var del := Delete(db', id, None, None);
    UploadGateSpec(del.db, id, PdfContentType, size');
  }
}

=== FILE: strings.dfy ===
/** String helpers with Python semantics: `sep.join(parts)`, `str(n)` for
    integers and `repr` for strings and lists of strings. */
module Strings {

  /** `sep.join(parts)`. */
  function Join(parts: seq<string>, sep: string): string
  {
    if |parts| == 0 then ""
    else if |parts| == 1 then parts[0]
    else parts[0] + sep + Join(parts[1..], sep)
  }

  /** Joining two non-empty lists is joining their joins. */
  lemma {:induction false} JoinAppend(a: seq<string>, b: seq<string>, sep: string)
    requires |a| > 0 && |b| > 0
    ensures Join(a + b, sep) == Join(a, sep) + sep + Join(b, sep)
  {
    if |a| == 1 {
      assert (a + b)[1..] == b;
    } else {
      assert (a + b)[1..] == a[1..] + b;
      JoinAppend(a[1..], b, sep);
    }
  }

  /** The join of a single part is that part, and the empty list joins to "". */
  lemma {:induction false} JoinSmall(p: string, sep: string)
    ensures Join([p], sep) == p
    ensures Join([], sep) == ""
  {
  }

  predicate IsDigit(c: char)
  {
    '0' <= c <= '9'
  }

  function DigitChar(d: nat): (c: char)
    requires d < 10
    ensures IsDigit(c)
  {
    "0123456789"[d]
  }

  function DigitValue(c: char): (d: nat)
    requires IsDigit(c)
    ensures d < 10
  {
    (c as int) - ('0' as int)
  }

  /** `str(n)` for a natural number: its decimal digits, most significant first. */
  function NatToString(n: nat): (s: string)
    ensures |s| > 0
    ensures forall i :: 0 <= i < |s| ==> IsDigit(s[i])
  {
    if n < 10 then [DigitChar(n)] else NatToString(n / 10) + [DigitChar(n % 10)]
  }

  /** `str(i)` for any integer: a minus sign before the digits of a negative number. */
  function IntToString(i: int): string
  {
    if i < 0 then "-" + NatToString(-i) else NatToString(i)
  }

  /** The value of a string of decimal digits (the inverse of `NatToString`). */
  function ParseDecimal(s: string): nat
    requires forall i :: 0 <= i < |s| ==> IsDigit(s[i])
  {
    if |s| == 0 then 0 else ParseDecimal(s[..|s| - 1]) * 10 + DigitValue(s[|s| - 1])
  }

  /** Reading back the digits of `n` gives `n`. */
  lemma {:induction false} ParseNatToString(n: nat)
    ensures ParseDecimal(NatToString(n)) == n
  {
    var s := NatToString(n);
    if n < 10 {
      assert s[..0] == [];
    } else {
      assert s[..|s| - 1] == NatToString(n / 10);
      ParseNatToString(n / 10);
    }
  }

  /** Distinct numbers have distinct decimal renderings. */
  lemma {:induction false} NatToStringInjective(a: nat, b: nat)
    requires NatToString(a) == NatToString(b)
    ensures a == b
  {
    ParseNatToString(a);
    ParseNatToString(b);
  }

  /** `prefix + str(a)` determines `a`: the identifier schemes `ch_N` and
      `section_N` never give two numbers the same identifier. */
  lemma {:induction false} NumberedNameInjective(prefix: string, a: nat, b: nat)
    requires prefix + NatToString(a) == prefix + NatToString(b)
    ensures a == b
  {
    var x := prefix + NatToString(a);
    assert NatToString(a) == x[|prefix|..];
    assert NatToString(b) == (prefix + NatToString(b))[|prefix|..];
    NatToStringInjective(a, b);
  }

  /** Python's `repr` of a string: single quotes, or double quotes when the
      text holds a single quote but no double quote. Backslash escaping of
      quotes and unprintable characters is not modelled. */
  function Repr(s: string): (r: string)
    ensures |r| == |s| + 2
    ensures r[1..|r| - 1] == s
    ensures r[0] in {'\'', '"'} && r[|r| - 1] == r[0]
    ensures r[0] == '"' <==> '\'' in s && '"' !in s
  {
    if '\'' in s && '"' !in s then "\"" + s + "\"" else "'" + s + "'"
  }

  /** Python's `repr` of a list of strings, e.g. `['pdf', 'github']`. */
  function ListRepr(items: seq<string>): string
  {
    "[" + Join(seq(|items|, i requires 0 <= i < |items| => Repr(items[i])), ", ") + "]"
  }
}

=== FILE: values.dfy ===
/** Small value types shared by every module of the model: an optional value
    (Python's `None` or a value) and JSON-like documents (the dictionaries the
    backend returns and stores). */
module Values {

  /** Python's `Optional[T]`: `None` or a value. */
  datatype Option<+T> = None | Some(value: T)

  /** A JSON value. Objects are finite maps; Python's dictionary insertion
      order is not represented. */
  datatype Json =
    | JNull
    | JBool(b: bool)
    | JInt(i: int)
    | JString(s: string)
    | JArray(items: seq<Json>)
    | JObject(fields: map<string, Json>)

  /** Python truthiness of an optional string: `None` and `""` are falsy. */
  predicate Truthy(s: Option<string>)
  {
    s.Some? && s.value != ""
  }
}
